=== FILE: README.md ===
# LoanPricer2 core in Dafny

A model of the arithmetic core of the LoanPricer2 loan pricer, with proofs of
its properties:

- **Amortisation schedule** (`backend/schedule.py`): `get_commitment` checks the
  tenor and frequency strings and the facility type, then builds a linearly
  decreasing commitment list; `get_repayment` turns commitments into per-period
  repayments; `init_with_ql` adds the integer mid-date and the simple-interest
  discount factor `1 / (1 + rate * dcf)` of each period.
- **Natural cubic spline** (`backend/interp3.py`): the reduced tridiagonal
  system built from the knots, the zero-padded second-derivative proxies `b`,
  the recovered `a` and `c` coefficients, the segment list, and evaluation by a
  scan over closed knot intervals.
- **Break-even rate and pricing waterfall** (`backend/formulars.py`):
  `ImpliedIZV`, the closed-form rate at which the discounted repayments equal
  the opening draw plus interest, and `Pricing`, the per-period profit and cost
  lines with their aggregates (operational sales revenue, risk price and
  economic profit).

Python floats are modelled as Dafny `real`, numpy arrays as `seq<real>`, and
every exception or non-numeric result the source produces as a `Failure` of a
`Result` (or `None` of an `Option`). Files:

- `wrappers.dfy` (`Wrappers`): `Option` and `Result`.
- `sums.dfy` (`Sums`): `np.sum`, element-wise `+` and `*`, scaling, and their
  sum laws.
- `spline.dfy` (`Spline`): `interp3.py`.
- `schedule.dfy` (`Schedule`): `schedule.py`; reads the reference rate from a
  `Spline` segment list.
- `formulars.dfy` (`Formulars`): `formulars.py`; relates the break-even rate to
  the repayments of `Schedule`.

## Model

| member | source | states |
|---|---|---|
| `Spline.NewCubicSpline` | backend/interp3.py:79-91 | Construction fails exactly when there are fewer than two knots or the ordinates do not match the knots; otherwise it yields `n-1` segments, segment `i` spanning `(x[i], x[i+1])` with `d = y[i]` and `b` the zero-padded solver result at `i` (trailing entries dropped). |
| `Spline.Segments` | backend/interp3.py:36 | One segment per knot interval, segment `i` over `(x[i], x[i+1])` with `b[i]` and `d[i]`; the trailing coefficient entries are not used. |
| `Spline.Eval` | backend/interp3.py:13-14 | A segment evaluated at its own left knot returns its constant coefficient `d`. |
| `Spline.CheckInterval` | backend/interp3.py:16-19 | The interval test is closed at both ends: each end of a non-empty interval passes, and nothing passes for an empty interval. |
| `Spline.CreateMatrixX` | backend/interp3.py:45-53 | Dropping the first and last columns leaves a square `n-2` by `n-2` system, one row per interior knot. |
| `Spline.CreateMatrixY` | backend/interp3.py:55-61 | One right-hand side per interior knot (`n-2` entries). |
| `Spline.ComputeA` | backend/interp3.py:63-69 | One entry per padded unknown, and the last entry, which the loop never writes, stays 0. |
| `Spline.ComputeC` | backend/interp3.py:71-77 | One entry per padded unknown, and the last entry, which the loop never writes, stays 0. |
| `Spline.SegmentsEntry` | backend/interp3.py:36 | Segment `i` of the list comprehension carries entry `i` of every coefficient array and the knot pair `(x[i], x[i+1])`. |
| `Spline.SplineSpansKnots` | backend/interp3.py:36 | The constructed segments lie over consecutive knot intervals, one per interval. |
| `Spline.SegmentIs` | backend/interp3.py:63-77 | Segment `i` is the cubic recovered by `__compute_a` and `__compute_c` from the padded unknowns and ordinates at knots `i` and `i+1`. |
| `Spline.SegmentHitsLeftKnot` | backend/interp3.py:13-14 | Segment `i` evaluated at its left knot `x[i]` returns `y[i]`. |
| `Spline.SegmentHitsRightKnot` | backend/interp3.py:63-77 | Segment `i` evaluated at its right knot `x[i+1]` returns `y[i+1]`, for any solver result. |
| `Spline.NaturalBoundary` | backend/interp3.py:79-83 | The second derivative of the spline is zero at the first and at the last knot. |
| `Spline.CurvatureContinuous` | backend/interp3.py:63-69 | At every interior knot the two adjacent segments have the same second derivative, for any solver result. |
| `Spline.RowEquation` | backend/interp3.py:45-61 | If the solver result solves `X m = Y`, row `i` holds over the padded unknowns: the dropped columns multiply the zero boundary entries. |
| `Spline.SlopeContinuous` | backend/interp3.py:45-77 | If the solver result solves `X m = Y`, the two segments around each interior knot have the same first derivative there (C1 continuity). |
| `Spline.SlopeAtLeftKnot` | backend/interp3.py:71-77 | The slope of segment `i` at its left knot is its coefficient `c`. |
| `Spline.MatrixEntries` | backend/interp3.py:45-53 | Entry `(i, j)` of the reduced matrix is the left interval width below the diagonal, twice the width of both intervals on it, the right interval width above it, and zero elsewhere (tridiagonal). |
| `Spline.MatrixDiagonallyDominant` | backend/interp3.py:45-53 | For strictly increasing knots, the absolute off-diagonal entries of each row sum to at most `x[i+2]-x[i]`, which is strictly below the diagonal entry. |
| `Spline.EvaluateSelectsSegment` | backend/interp3.py:39-42 | The scan returns segment `i`'s value for every query in `(x[i], x[i+1]]` and segment 0's at `x[0]`: at an interior knot the left segment wins because intervals are closed. |
| `Spline.EvaluateOutOfRange` | backend/interp3.py:39-43 | Evaluation yields no number exactly when the query lies outside `[x[0], x[n-1]]`. |
| `Spline.Evaluate` | backend/interp3.py:39-43 | Evaluation yields no number exactly when no segment's closed interval contains the query. |
| `Spline.InterpolatesKnots` | backend/interp3.py:36-43 | Evaluating the constructed spline at any knot `x[k]` returns `y[k]`. |
| `Schedule.DigitValue` | backend/schedule.py:55-56 | `int()` of one character succeeds exactly for a decimal digit, and the value reads back as that digit. |
| `Schedule.ParseTerms` | backend/schedule.py:52-56 | The tenor must be a digit then `Y` and the frequency a digit then `M`; the tenor unit is checked before the frequency unit, a string shorter than two characters is an index error, and a wrong unit is the "only yearly tenor and monthly frequency" error. |
| `Schedule.ParseSpelledTerms` | backend/schedule.py:52-56 | Parsing single-digit terms spelled as `"<d>Y"` and `"<d>M"` gives back those terms. |
| `Schedule.TwoDigitTermsRejected` | backend/schedule.py:52-53 | `"10Y"` and `"12M"` are rejected as unsupported units, because only the first character is read as the amount. |
| `Schedule.CheckedTerms` | backend/schedule.py:52-66 | The loop starts exactly for well-formed terms with facility type 1, a nonzero tenor and a nonzero frequency; string errors come before the facility-type error. |
| `Schedule.RangeLengthIs` | backend/schedule.py:61 | The list of `range(start, stop, step)` values has CPython's length `ceil((stop-start)/step)` (0 when empty). |
| `Schedule.PyRange` | backend/schedule.py:61 | Every value of `range(start, stop, step)` lies in `[start, stop)`. |
| `Schedule.RangeProgression` | backend/schedule.py:61 | `range` is empty exactly when `start >= stop`; otherwise it starts at `start`, goes up by `step`, and its last value is the last one below `stop`. |
| `Schedule.Amortize` | backend/schedule.py:59-63 | The loop appends one balance per pass after the opening balance, which comes first. |
| `Schedule.InstallmentsRepay` | backend/schedule.py:60 | The installment `frequency/(12*tenor)*c0` times `12*tenor` is `frequency*c0`, so the `12*tenor/frequency` installments, one per period, repay `c0`. |
| `Schedule.AmortizeLinear` | backend/schedule.py:59-63 | Balance `k` after `k` passes of the loop is the opening balance less `k` installments. |
| `Schedule.GetCommitment` | backend/schedule.py:50-66 | Fails exactly when the terms are rejected; otherwise the list starts with the opening commitment (loop bound corrected, see Findings). |
| `Schedule.CommitmentLength` | backend/schedule.py:61 | The corrected list has the fewest periods of `frequency` months that cover `12*tenor` months (20 for 5Y/3M, 60 for 5Y/1M). |
| `Schedule.CommitmentValues` | backend/schedule.py:59-63 | Balance `k` of the commitment list is `c0 - k * frequency/(12*tenor) * c0`. |
| `Schedule.CommitmentEndsOnInstallment` | backend/schedule.py:59-63 | When the frequency divides the tenor in months, the last balance is exactly one installment. |
| `Schedule.GetCommitmentAsWritten` | backend/schedule.py:50-66 | The loop as written fails exactly when the terms are rejected and otherwise starts with the opening commitment. |
| `Schedule.CommitmentLengthAsWritten` | backend/schedule.py:61 | The list as written has the fewest periods of `frequency` months covering `12*tenor - 1` months: one month short of the tenor. |
| `Schedule.CommitmentExtendsAsWritten` | backend/schedule.py:59-64 | The list as written is a prefix of the corrected list. |
| `Schedule.CommitmentOffByOne` | backend/schedule.py:61 | The list as written is exactly one balance short when the frequency is one month or `12*tenor` leaves a remainder of one month, and of the right length otherwise. |
| `Schedule.QuarterlyOverFiveYears` | backend/schedule.py:61 | `"5Y"` with `"3M"` yields 20 balances both as written and corrected. |
| `Schedule.MonthlyOffByOne` | backend/schedule.py:61 | `"5Y"` with `"1M"` yields 59 balances as written against 60, and `"3Y"` with `"5M"` 7 against 8. |
| `Schedule.GetRepayment` | backend/schedule.py:40-47 | The repayment list has the same length as the commitment list. |
| `Schedule.RepaymentsTelescope` | backend/schedule.py:40-47 | For a non-empty commitment list, the repayments add up to the opening commitment. |
| `Schedule.RepaymentInverse` | backend/schedule.py:40-47 | The outstanding balances of the repayments (sum of those still to come) give back the commitment list. |
| `Schedule.OutstandingInverse` | backend/schedule.py:40-47 | The repayments of the outstanding balances of a plan give back the plan. |
| `Schedule.RepaymentsNonNegative` | backend/schedule.py:45-46 | A commitment list that never increases and ends non-negative has only non-negative repayments. |
| `Schedule.MidDate` | backend/schedule.py:23 | The mid-date is the floor of the average of the two serial numbers and lies between them. |
| `Schedule.DiscountFactor` | backend/schedule.py:30-31 | The discount factor fails exactly when the curve gives no rate (a type error) or `1 + rate*dcf` is zero (ZeroDivisionError); otherwise it is the reciprocal of `1 + rate*dcf`, and lies in `(0, 1]` when `rate*dcf >= 0`. |
| `Schedule.DiscountColumn` | backend/schedule.py:30-31 | A discount column succeeds exactly when every period's factor does, holds those factors, and otherwise fails with the error of the first period that fails. |
| `Schedule.SplitHead` | backend/schedule.py:13 | `split("Y")[0]` is the longest prefix without a `Y`: all of the text when there is none, otherwise the text up to the first `Y`. |
| `Schedule.PyInt` | backend/schedule.py:13 | `int()` of a string succeeds exactly when its text, stripped of whitespace, is base-10 digits (an underscore only between two digits) with an optional sign; otherwise it is a ValueError. |
| `Schedule.ReadDigits` | backend/schedule.py:13 | `int()` of a run of digits, with or without a minus sign, is the number they spell. |
| `Schedule.PyIntRoundTrip` | backend/schedule.py:13 | Reading back the decimal spelling of any integer gives that integer. |
| `Schedule.TenorYears` | backend/schedule.py:13 | A tenor without `Y` is read whole by `int()`; a digit followed by `Y`, the only tenor `get_commitment` accepts, reads that digit. |
| `Schedule.TenorHead` | backend/schedule.py:13 | The text before the first `Y` is the whole tenor when it has no `Y`, and the leading digit of a `"<d>Y..."` tenor. |
| `Schedule.NotANumber` | backend/schedule.py:13 | A tenor without `Y` that starts with a non-space and ends with a character that is neither a digit nor whitespace has no year count. |
| `Schedule.EmptyTenorRejected` | backend/schedule.py:13 | The empty tenor has no year count (ValueError). |
| `Schedule.LetterTenorRejected` | backend/schedule.py:13 | The tenor `"X"` has no year count (ValueError). |
| `Schedule.BareYearRejected` | backend/schedule.py:13 | The tenor `"Y"` has no year count (ValueError). |
| `Schedule.MonthTenorRejected` | backend/schedule.py:13 | The tenor `"5M"` has no year count (ValueError). |
| `Schedule.TenYearsHead` | backend/schedule.py:13 | The text before the `Y` of `"10Y"` is `"10"`. |
| `Schedule.ReadsTen` | backend/schedule.py:13 | `int("10")` is 10. |
| `Schedule.TenorYearsReadsTen` | backend/schedule.py:13 | `"10Y"` has a year count of 10, although `get_commitment` then rejects it (`Schedule.TwoDigitTermsRejected`). |
| `Schedule.AssembleSchedule` | backend/schedule.py:13-31 | Given the commitment column, failures come in the source's order: no year count in the tenor, then the commitment's own error, then a length mismatch exactly when the column's length is not the number of periods; a schedule has one row per period and carries the given commitment column. |
| `Schedule.ScheduleRows` | backend/schedule.py:18-31 | Once the commitment column fits, each row spans its two boundary dates with their mid-date and the period's day-count fraction and carries the commitment column; the only failures left are an unpriced rate and a zero discount denominator (ZeroDivisionError). |
| `Schedule.InitSchedule` | backend/schedule.py:13-31 | With the corrected commitment list, the schedule has one row per period; a tenor without a year count fails first, then rejected terms fail with their error, and a commitment list whose length is not the number of periods is a length mismatch. |
| `Schedule.InitScheduleAsWritten` | backend/schedule.py:13-31 | With the commitment list as written, the schedule has one row per period, and for accepted terms it is a length mismatch exactly when that list's length is not the number of periods. |
| `Schedule.MonthlyScheduleRejected` | backend/schedule.py:26 | Five years paid monthly over 60 periods: the column assignment as written fails with a length mismatch, and the corrected one does not. |
| `Schedule.ScheduleContiguous` | backend/schedule.py:18-24 | The rows follow the boundary dates without gaps and carry their period's day-count fraction. |
| `Schedule.ScheduleConservesCommitment` | backend/schedule.py:26-27 | The schedule starts at the opening commitment, its repayments add up to it, each commitment less its repayment is the next commitment, and the last repayment clears the balance. |
| `Schedule.ScheduleDiscounts` | backend/schedule.py:28-31 | Each row's start and end discount factors are the discount factors of the curve's rate at that boundary and the period's day-count fraction. |
| `Schedule.ScheduleNeedsCurveCoverage` | backend/schedule.py:28-31 | A boundary date the curve cannot price makes the schedule fail. |
| `Schedule.ScheduleMidDates` | backend/schedule.py:23 | For increasing boundaries every mid-date lies in its period, before the end date. |
| `Formulars.ImpliedIzv` | backend/formulars.py:4-23 | Fails exactly on unequal shapes (shape error first), an empty commitment or a zero denominator; otherwise the rate `z` satisfies `c[0] + z * sum(c*dcf*disc) == sum(r*disc)`. |
| `Formulars.IzvUnique` | backend/formulars.py:20-23 | Any rate satisfying the break-even identity is the one returned. |
| `Formulars.IzvSign` | backend/formulars.py:20-23 | For a positive denominator the rate is positive exactly when the discounted repayments exceed the opening draw. |
| `Formulars.IzvDenominatorPositive` | backend/formulars.py:22 | The denominator is positive when the first period's commitment-dcf-discount product is positive and no other is negative. |
| `Formulars.IzvZeroWithoutDiscounting` | backend/formulars.py:20-23 | With all discount factors 1 and the repayments of `get_repayment`, the rate is 0. |
| `Formulars.IzvScaleInvariant` | backend/formulars.py:20-23 | Scaling commitment and repayments by the same nonzero factor leaves the result, rate or failure, unchanged. |
| `Formulars.Sdf` | backend/formulars.py:100-105 | One weight per period, `N` in all. |
| `Formulars.Lad` | backend/formulars.py:72-77 | One loss amount per period; it is 0 when the commitment or the loss given default is. |
| `Formulars.GrossProfit` | backend/formulars.py:114-119 | One entry per period, `N` in all. |
| `Formulars.FundingCost` | backend/formulars.py:107-112 | One entry per period; it is 0 when the commitment, the funding spread or the period's weight is. |
| `Formulars.StandardRiskCost` | backend/formulars.py:86-91 | One entry per period; it is 0 when the loss amount, the default probability or the period's weight is. |
| `Formulars.CapitalCost` | backend/formulars.py:93-98 | One entry per period; it is 0 when the risk-weighted assets, the capital ratio or the capital return is. |
| `Formulars.OperationalRiskCost` | backend/formulars.py:79-84 | Operational-risk cost is gross profit scaled by `-(op_risk_weight * cap_return)`. |
| `Formulars.ProductCost` | backend/formulars.py:67-71 | Product cost is gross profit scaled by `-cost_income_ratio`. |
| `Formulars.Pricing` | backend/formulars.py:25-65 | Succeeds exactly when every per-period array reaches the commitment array's length (index error otherwise); every line has that length, operational sales revenue is total gross profit plus funding cost, risk price is the total of the three risk lines, and economic profit is their sum plus total product cost. |
| `Formulars.GrossProfitAtBreakEven` | backend/formulars.py:118 | At a customer margin equal to the funding rate, gross profit is the commitment fee on the undrawn part times the commitment and `sdf`. |
| `Formulars.WeightlessPeriod` | backend/formulars.py:79-119 | A period with zero day-count fraction, survival probability or end discount factor has weight 0, and its gross profit, funding cost, standard-risk cost, operational-risk cost and product cost are all 0. |
| `Formulars.CostsNonPositive` | backend/formulars.py:86-112 | Funding, standard-risk and capital cost of a period are at most zero when all their factors are non-negative. |
| `Formulars.CapitalCostIgnoresDfEnd` | backend/formulars.py:93-98 | Capital cost does not depend on `df_end`: it discounts with the `disount_factor` argument. |
| `Formulars.ShareLines` | backend/formulars.py:67-84 | Operational-risk cost and product cost are fixed negative shares of gross profit. |
| `Formulars.EconomicProfitByPeriod` | backend/formulars.py:50-65 | Economic profit is the sum over periods of gross profit net of its risk and cost shares plus the funding, standard-risk and capital cost lines. |
| `Formulars.WaterfallOf` | backend/formulars.py:50-65 | Any pricing result whose aggregates are the column totals and whose share lines are shares of gross profit has economic profit equal to the sum of the period contributions. |
| `Formulars.PricingAsWritten` | backend/formulars.py:25-71 | The constructor as written fails on every input. |
| `Formulars.EconomicProfitAsWritten` | backend/formulars.py:65 | The economic-profit expression as written fails exactly when product cost is `None`. |
| `Formulars.PricingAsWrittenNeverCompletes` | backend/formulars.py:63-71 | The constructor as written never completes: type error whenever the corrected one succeeds, index error otherwise. |
| `Formulars.EconomicProfitBroadcast` | backend/formulars.py:65 | With product cost returned, the expression as written broadcasts the scalar total over `N` periods: `N * total + sum(product_cost)`. |
| `Formulars.BroadcastAgreesOnlyForOnePeriod` | backend/formulars.py:65 | The broadcast agrees with the waterfall exactly for a single period or a zero total. |
| `Formulars.BroadcastCounterexample` | backend/formulars.py:65 | Two periods with total 1 and no product cost yield 2 as written against 1 intended. |

## Left out

- `RiskWeightedAssets` (backend/formulars.py:122-154): it needs the normal
  distribution and its inverse, `exp`, `log` and `sqrt`, none exact over the
  reals, and as written it cannot run (it stores `pf` but reads `pd`, and two
  helpers return nothing).
- QuantLib: schedule generation, date arithmetic, `ql.Period` and
  `yearFraction`. Period boundaries are parameters as day serial numbers, and
  day-count fractions are parameters.
- The Actual/Actual ISDA day-count column (backend/schedule.py:25): a second
  QuantLib `yearFraction`, used by nothing in the core.
- Schedule.InitSchedule: does not model `ql.Period(frequency)`
  (backend/schedule.py:14) or QuantLib's schedule generation (:15-16), which
  run between the year count and the commitment list. Their errors, such as a
  frequency QuantLib cannot parse, are not modelled because the boundary dates
  and day-count fractions are parameters. The year count itself is modelled
  (`Schedule.TenorYears`); only QuantLib uses its value.
- `np.linalg.solve`: its solution `m` is a parameter. Only the C1 lemmas
  assume that it solves `X m = Y`. A singular system (numpy raises) is not
  modelled.
- The hard-coded default curve in `CubicSpline.__init__` and its rebuilding for
  every schedule row: the curve is a segment list parameter of `InitSchedule`.
- pandas DataFrame assembly and the date-to-string conversion; a column
  length mismatch is modelled as `LengthMismatch`.
- Float rounding, infinities and NaN. In `ImpliedIZV` the operands are numpy
  scalars, so a zero denominator yields an infinite or undefined value; it is
  modelled as a `NotFinite` failure. In the discount columns the operands are
  Python floats and a zero denominator raises `ZeroDivisionError`, modelled as
  `ZeroDivision`.
- Non-ASCII digits and whitespace, which Python's `int()` also accepts: the
  model accepts only `'0'..'9'` and strips only ASCII whitespace. Python's
  limit of 4300 digits for `int()` and `str()` (a ValueError beyond it) is not
  modelled: `Schedule.PyInt` reads numbers of any length.
- The `ImpliedIZV` type check (backend/formulars.py:7-8): every argument is a
  sequence of reals, so only the shape check remains.
- Driver scripts and tests.
- Spline.NewCubicSpline: requires strictly increasing knots. Equal knots make
  the source divide by zero and decreasing knots are outside its use. It also
  requires the solver result to have one entry per interior knot, as a
  successful `np.linalg.solve` guarantees.
- Schedule.CommitmentEndsOnInstallment: is stated for any installment that
  repays the opening commitment over the tenor. `Schedule.InstallmentsRepay`
  shows that the source's installment is one of these, so the lemma is
  not stated directly on `get_commitment`.
- Formulars.Sdf: the contract gives only the length, not the product of
  day-count fraction, survival probability and end discount factor;
  `Formulars.WeightlessPeriod` states when a weight vanishes.
- Formulars.Lad: the contract gives the length and when an entry vanishes, not
  the product of commitment and loss given default.
- Formulars.GrossProfit: the contract gives only the length;
  `Formulars.GrossProfitAtBreakEven` states the entry when the customer margin
  equals the funding rate, and `Formulars.WeightlessPeriod` when it vanishes.
- Formulars.FundingCost: the contract gives the length and when an entry
  vanishes; its sign is stated by `Formulars.CostsNonPositive`.
- Formulars.StandardRiskCost: the contract gives the length and when an entry
  vanishes; its sign is stated by `Formulars.CostsNonPositive`.
- Formulars.CapitalCost: the contract gives the length and when an entry
  vanishes; its sign is stated by `Formulars.CostsNonPositive`.
- Spline.CreateMatrixX: the contract gives the shape; the entries are stated
  by `Spline.MatrixEntries`.
- Spline.CreateMatrixY: the contract gives the length; the entries enter
  through `Spline.RowEquation`.
- Schedule.Amortize: the contract gives the length and the opening balance;
  the balances are stated by `Schedule.AmortizeLinear`.
- Formulars.Pricing: does not check shapes. Neither does the source, which
  only raises when an array is shorter than the commitment array and silently
  ignores a longer array's tail. The model follows the code.

## Findings

| source | as written | input that shows it | evidently intended | confidence | as-written member | corrected member |
|---|---|---|---|---|---|---|
| backend/schedule.py:61 | the loop runs over `range(1, 12*tenor - frequency, frequency)`, which covers only `12*tenor - 1` months | `"5Y"`, `"1M"`: 59 commitments for 60 monthly periods, so the column assignment at line 26 raises; `"3Y"`, `"5M"`: 7 for 8 | one commitment per period of `frequency` months within the tenor, `range(frequency, 12*tenor, frequency)` | not executed | `Schedule.GetCommitmentAsWritten` (`Schedule.CommitmentOffByOne`, `Schedule.MonthlyOffByOne`), `Schedule.InitScheduleAsWritten` (`Schedule.MonthlyScheduleRejected`) | `Schedule.GetCommitment` (`Schedule.CommitmentLength`), `Schedule.InitSchedule` |
| backend/formulars.py:67-71 | `__calculate_product_cost` fills its array but returns nothing, so `product_cost` is `None` and line 65 raises TypeError | any input whose arrays are long enough | return the filled array | not executed | `Formulars.PricingAsWritten` (`Formulars.PricingAsWrittenNeverCompletes`) | `Formulars.Pricing` (`Formulars.EconomicProfitByPeriod`) |
| backend/formulars.py:65 | `np.sum(osr + risk_price + product_cost + 0)` adds the scalar total to every period before summing, giving `N*(osr + risk_price) + sum(product_cost)` | two periods, `osr + risk_price = 1`, product cost `[0, 0]`: 2 instead of 1 | `osr + risk_price + sum(product_cost)` | not executed | `Formulars.EconomicProfitAsWritten` (`Formulars.BroadcastCounterexample`) | `Formulars.Pricing` (`Formulars.EconomicProfitByPeriod`) |

=== FILE: formulars.dfy ===
/** The break-even rate and the pricing waterfall of backend/formulars.py:
    `ImpliedIZV`, a closed-form ratio of two discounted sums, and `Pricing`,
    per-period profit and cost lines and their aggregates. numpy arrays are
    `seq<real>`; every per-period loop runs over the length `N` of the
    commitment array and reads the other arrays at the same index. */
module Formulars {
  import opened Wrappers
  import opened Sums
  import Schedule

  /* ---------------------------------------------------------------------- */
  /* Implied break-even rate                                                */
  /* ---------------------------------------------------------------------- */

  /** Failures of `ImpliedIZV`: unequal shapes (ValueError), an empty commitment
      (IndexError on its first entry), and a zero denominator, for which numpy
      returns an infinite or undefined float instead of a number. */
  datatype IzvError = ShapeMismatch | EmptyCommitment | NotFinite

  /** Discounted repayments `sum(repayment * discount_at_end)`. */
  function DiscountedRepayments(r: seq<real>, disc: seq<real>): real
    requires |r| == |disc|
  {
    Sum(Times(r, disc))
  }

  /** Discounted commitment-time `sum(bank_commitment * day_count_fraction * discount_at_end)`. */
  function DiscountedExposure(c: seq<real>, dcf: seq<real>, disc: seq<real>): real
    requires |c| == |dcf| == |disc|
  {
    Sum(Times(Times(c, dcf), disc))
  }

  /** `ImpliedIZV`: the rate `z` at which the opening draw plus `z` times the
      discounted commitment-time equals the discounted repayments. */
  function ImpliedIzv(c: seq<real>, r: seq<real>, disc: seq<real>, dcf: seq<real>): (z: Result<real, IzvError>)
    ensures z.Failure? <==>
      |r| != |c| || |disc| != |c| || |dcf| != |c| || |c| == 0 || DiscountedExposure(c, dcf, disc) == 0.0
    ensures |r| != |c| || |disc| != |c| || |dcf| != |c| ==> z == Failure(ShapeMismatch)
    ensures z.Success? ==> c[0] + z.value * DiscountedExposure(c, dcf, disc) == DiscountedRepayments(r, disc)
  {
    if |r| != |c| || |disc| != |c| || |dcf| != |c| then Failure(ShapeMismatch)
    else if |c| == 0 then Failure(EmptyCommitment)
    else
      var numerator := -c[0] + DiscountedRepayments(r, disc);
      var denominator := DiscountedExposure(c, dcf, disc);
      if denominator == 0.0 then Failure(NotFinite)
      else Success(numerator / denominator)
  }

  /** The break-even identity determines the rate: any `z` that satisfies it is
      the one `ImpliedIzv` returns. */
  lemma IzvUnique(c: seq<real>, r: seq<real>, disc: seq<real>, dcf: seq<real>, z: real)
    requires |r| == |c| == |disc| == |dcf| >= 1
    requires DiscountedExposure(c, dcf, disc) != 0.0
    requires c[0] + z * DiscountedExposure(c, dcf, disc) == DiscountedRepayments(r, disc)
    ensures ImpliedIzv(c, r, disc, dcf) == Success(z)
  {
    var d := DiscountedExposure(c, dcf, disc);
    var w := ImpliedIzv(c, r, disc, dcf).value;
    assert w * d == z * d;
    CancelFactor(w, z, d);
  }

  lemma CancelFactor(w: real, z: real, d: real)
    requires d != 0.0 && w * d == z * d
    ensures w == z
  {
    assert w == (w * d) / d && z == (z * d) / d;
  }

  /** The rate is positive exactly when the discounted repayments exceed the
      opening draw, for a positive denominator. */
  lemma IzvSign(c: seq<real>, r: seq<real>, disc: seq<real>, dcf: seq<real>)
    requires |r| == |c| == |disc| == |dcf| >= 1
    requires DiscountedExposure(c, dcf, disc) > 0.0
    ensures ImpliedIzv(c, r, disc, dcf).value > 0.0 <==> DiscountedRepayments(r, disc) > c[0]
  {
    var d := DiscountedExposure(c, dcf, disc);
    var z := ImpliedIzv(c, r, disc, dcf).value;
    assert z * d == DiscountedRepayments(r, disc) - c[0];
    if z > 0.0 {
      assert z * d > 0.0;
    } else {
      assert z * d <= 0.0;
    }
  }

  /** The denominator is positive when the first period carries positive
      commitment, day-count and discount, and no period's product is negative. */
  lemma IzvDenominatorPositive(c: seq<real>, dcf: seq<real>, disc: seq<real>)
    requires |c| == |dcf| == |disc| >= 1
    requires c[0] * dcf[0] * disc[0] > 0.0
    requires forall i :: 1 <= i < |c| ==> c[i] * dcf[i] * disc[i] >= 0.0
    ensures DiscountedExposure(c, dcf, disc) > 0.0
  {
    var s := Times(Times(c, dcf), disc);
    assert forall k :: 0 <= k < |s| - 1 ==> s[1..][k] == c[k + 1] * dcf[k + 1] * disc[k + 1];
    SumNonNegative(s[1..]);
  }

  /** Without discounting and with the repayments of `Schedule.get_repayment`,
      the discounted repayments are exactly the opening draw, so the break-even
      rate is zero. */
  lemma IzvZeroWithoutDiscounting(c: seq<real>, dcf: seq<real>, disc: seq<real>)
    requires |c| == |dcf| == |disc| >= 1
    requires forall i :: 0 <= i < |disc| ==> disc[i] == 1.0
    requires DiscountedExposure(c, dcf, disc) != 0.0
    ensures ImpliedIzv(c, Schedule.GetRepayment(c), disc, dcf) == Success(0.0)
  {
    var r := Schedule.GetRepayment(c);
    assert Times(r, disc) == r;
    Schedule.RepaymentsTelescope(c);
    IzvUnique(c, r, disc, dcf, 0.0);
  }

  /** Scaling commitment and repayments by the same nonzero factor leaves the
      rate unchanged, and so does failure. */
  lemma IzvScaleInvariant(c: seq<real>, r: seq<real>, disc: seq<real>, dcf: seq<real>, k: real)
    requires k != 0.0
    ensures ImpliedIzv(Scale(k, c), Scale(k, r), disc, dcf) == ImpliedIzv(c, r, disc, dcf)
  {
    if |r| == |c| == |disc| == |dcf| >= 1 {
      ScaledExposure(c, dcf, disc, k);
      if DiscountedExposure(c, dcf, disc) != 0.0 {
        var z := ImpliedIzv(c, r, disc, dcf).value;
        ScaledRepayments(r, disc, k);
        ScaledIdentity(k, c[0], z, DiscountedExposure(c, dcf, disc), DiscountedRepayments(r, disc));
        assert Scale(k, c)[0] == k * c[0];
        IzvUnique(Scale(k, c), Scale(k, r), disc, dcf, z);
      }
    }
  }

  /** Scaling the commitment scales the discounted commitment-time. */
  lemma ScaledExposure(c: seq<real>, dcf: seq<real>, disc: seq<real>, k: real)
    requires |c| == |dcf| == |disc|
    ensures DiscountedExposure(Scale(k, c), dcf, disc) == k * DiscountedExposure(c, dcf, disc)
  {
    var e := Times(Times(c, dcf), disc);
    assert Times(Times(Scale(k, c), dcf), disc) == Scale(k, e) by {
      forall i | 0 <= i < |c|
        ensures Times(Times(Scale(k, c), dcf), disc)[i] == Scale(k, e)[i]
      {
        var t := Times(Scale(k, c), dcf);
        assert t[i] == (k * c[i]) * dcf[i];
        assert Times(c, dcf)[i] == c[i] * dcf[i];
        assert e[i] == (c[i] * dcf[i]) * disc[i];
        ScaledProduct(k, c[i], dcf[i], disc[i]);
      }
    }
    SumScale(k, e);
  }

  /** Scaling the repayments scales the discounted repayments. */
  lemma ScaledRepayments(r: seq<real>, disc: seq<real>, k: real)
    requires |r| == |disc|
    ensures DiscountedRepayments(Scale(k, r), disc) == k * DiscountedRepayments(r, disc)
  {
    var v := Times(r, disc);
    assert Times(Scale(k, r), disc) == Scale(k, v) by {
      forall i | 0 <= i < |r|
        ensures Times(Scale(k, r), disc)[i] == Scale(k, v)[i]
      {
        assert Scale(k, r)[i] == k * r[i] && v[i] == r[i] * disc[i];
        assert (k * r[i]) * disc[i] == k * (r[i] * disc[i]);
      }
    }
    SumScale(k, v);
  }

  lemma ScaledProduct(k: real, a: real, b: real, e: real)
    ensures (k * a) * b * e == k * (a * b * e)
  {
  }

  /** Scalar step: the break-even identity survives scaling both sides. */
  lemma ScaledIdentity(k: real, c0: real, z: real, d: real, v: real)
    requires c0 + z * d == v
    ensures k * c0 + z * (k * d) == k * v
  {
    assert k * (c0 + z * d) == k * v;
  }

  /* ---------------------------------------------------------------------- */
  /* Pricing                                                                */
  /* ---------------------------------------------------------------------- */

  /** The constructor arguments of `Pricing`, one per parameter. */
  datatype PricingInputs = PricingInputs(
    commitment: seq<real>, survival: seq<real>, dfEnd: seq<real>, expectedUsage: seq<real>,
    customerMargin: real, izv: real, commitmentFee: real,
    fls: seq<real>, lgd: seq<real>, fdp: seq<real>,
    dcf: seq<real>, discountFactor: seq<real>, rwa: seq<real>,
    capRatio: real, capReturn: real, opRiskWeight: real, costIncomeRatio: real)
  {
    /** The number of periods: the length of the commitment array. */
    function N(): nat
    {
      |commitment|
    }

    /** Every per-period array reaches index `N - 1`. The loops read nothing
        beyond it, so longer arrays are accepted and their tail is ignored. */
    predicate Covers()
    {
      && |survival| >= N() && |dfEnd| >= N() && |expectedUsage| >= N()
      && |fls| >= N() && |lgd| >= N() && |fdp| >= N()
      && |dcf| >= N() && |discountFactor| >= N() && |rwa| >= N()
    }
  }

  /** The fields `Pricing` computes. */
  datatype PricingResult = PricingResult(
    sdf: seq<real>, lad: seq<real>,
    grossProfit: seq<real>, fundingCost: seq<real>, operationalSalesRevenue: real,
    standardRiskCost: seq<real>, capitalCost: seq<real>, operationalRiskCost: seq<real>, riskPrice: real,
    productCost: seq<real>, economicProfit: real)

  /** An array shorter than the commitment array makes a loop raise IndexError;
      adding `None` to a number raises TypeError. */
  datatype PricingError = IndexError | TypeError

  /** Survival-weighted discount factor of one period. */
  function SdfEntry(dcf: real, survival: real, dfEnd: real): real
  {
    dcf * survival * dfEnd
  }

  /** Gross profit of one period: drawn margin over the funding rate on the
      expected usage plus the fee on the undrawn part, weighted by `sdf`. */
  function GrossProfitEntry(c: real, usage: real, margin: real, izv: real, fee: real, sdf: real): real
  {
    c * (usage * (margin - izv) + (1.0 - usage) * fee) * sdf
  }

  function FundingCostEntry(c: real, fls: real, sdf: real): real
  {
    -c * fls * sdf
  }

  function StandardRiskCostEntry(lad: real, fdp: real, sdf: real): real
  {
    -lad * fdp * sdf
  }

  function CapitalCostEntry(dcf: real, discount: real, survival: real, rwa: real, capRatio: real, capReturn: real): real
  {
    -dcf * discount * survival * rwa * capRatio * capReturn
  }

  function OperationalRiskCostEntry(gp: real, opRiskWeight: real, capReturn: real): real
  {
    -gp * opRiskWeight * capReturn
  }

  function ProductCostEntry(gp: real, costIncomeRatio: real): real
  {
    -gp * costIncomeRatio
  }

  /** `Pricing.__calculate_sdf`. */
  function Sdf(p: PricingInputs): (r: seq<real>)
    requires p.Covers()
    ensures |r| == p.N()
  {
    seq(p.N(), i requires 0 <= i < p.N() => SdfEntry(p.dcf[i], p.survival[i], p.dfEnd[i]))
  }

  /** `Pricing.__calculate_lad`: commitment times loss given default. */
  function Lad(p: PricingInputs): (r: seq<real>)
    requires p.Covers()
    ensures |r| == p.N()
    ensures forall i :: 0 <= i < |r| && (p.commitment[i] == 0.0 || p.lgd[i] == 0.0) ==> r[i] == 0.0
  {
    seq(p.N(), i requires 0 <= i < p.N() => p.commitment[i] * p.lgd[i])
  }

  /** `Pricing.__calculate_gross_profit`. */
  function GrossProfit(p: PricingInputs, sdf: seq<real>): (r: seq<real>)
    requires p.Covers() && |sdf| == p.N()
    ensures |r| == p.N()
  {
    seq(p.N(), i requires 0 <= i < p.N() =>
      GrossProfitEntry(p.commitment[i], p.expectedUsage[i], p.customerMargin, p.izv, p.commitmentFee, sdf[i]))
  }

  /** `Pricing.__calculate_funding_cost`. */
  function FundingCost(p: PricingInputs, sdf: seq<real>): (r: seq<real>)
    requires p.Covers() && |sdf| == p.N()
    ensures |r| == p.N()
    ensures forall i :: 0 <= i < |r| && (p.commitment[i] == 0.0 || p.fls[i] == 0.0 || sdf[i] == 0.0) ==> r[i] == 0.0
  {
    seq(p.N(), i requires 0 <= i < p.N() => FundingCostEntry(p.commitment[i], p.fls[i], sdf[i]))
  }

  /** `Pricing.__calcualte_standard_risk_cost`. */
  function StandardRiskCost(p: PricingInputs, lad: seq<real>, sdf: seq<real>): (r: seq<real>)
    requires p.Covers() && |lad| == |sdf| == p.N()
    ensures |r| == p.N()
    ensures forall i :: 0 <= i < |r| && (lad[i] == 0.0 || p.fdp[i] == 0.0 || sdf[i] == 0.0) ==> r[i] == 0.0
  {
    seq(p.N(), i requires 0 <= i < p.N() => StandardRiskCostEntry(lad[i], p.fdp[i], sdf[i]))
  }

  /** `Pricing.__calculate_capital_cost`: it discounts with the
      `disount_factor` argument, not with `df_end`. */
  function CapitalCost(p: PricingInputs): (r: seq<real>)
    requires p.Covers()
    ensures |r| == p.N()
    ensures forall i :: 0 <= i < |r| && (p.rwa[i] == 0.0 || p.capRatio == 0.0 || p.capReturn == 0.0) ==> r[i] == 0.0
  {
    seq(p.N(), i requires 0 <= i < p.N() =>
      CapitalCostEntry(p.dcf[i], p.discountFactor[i], p.survival[i], p.rwa[i], p.capRatio, p.capReturn))
  }

  /** `Pricing.__calculate_operational_risk_cost`. */
  function OperationalRiskCost(p: PricingInputs, gp: seq<real>): (r: seq<real>)
    requires |gp| == p.N()
    ensures r == Scale(-(p.opRiskWeight * p.capReturn), gp)
  {
    var r := seq(p.N(), i requires 0 <= i < p.N() => OperationalRiskCostEntry(gp[i], p.opRiskWeight, p.capReturn));
    assert forall i :: 0 <= i < p.N() ==> r[i] == Scale(-(p.opRiskWeight * p.capReturn), gp)[i];
    r
  }

  /** `Pricing.__calculate_product_cost` with the array it fills returned. */
  function ProductCost(p: PricingInputs, gp: seq<real>): (r: seq<real>)
    requires |gp| == p.N()
    ensures r == Scale(-p.costIncomeRatio, gp)
  {
    var r := seq(p.N(), i requires 0 <= i < p.N() => ProductCostEntry(gp[i], p.costIncomeRatio));
    assert forall i :: 0 <= i < p.N() ==> r[i] == Scale(-p.costIncomeRatio, gp)[i];
    r
  }

  /** `np.sum(a + b + c)` for three arrays of one length. */
  function SumOfThreeColumns(a: seq<real>, b: seq<real>, c: seq<real>): (s: real)
    requires |a| == |b| == |c|
    ensures s == Sum(a) + Sum(b) + Sum(c)
  {
    SumPlus(Plus(a, b), c);
    SumPlus(a, b);
    Sum(Plus(Plus(a, b), c))
  }

  /** Economic profit as the waterfall intends it: operational sales revenue
      plus risk price plus the total product cost, with sales steering 0. */
  function EconomicProfit(osr: real, riskPrice: real, productCost: seq<real>): real
  {
    osr + riskPrice + Sum(productCost) + 0.0
  }

  /** `Pricing.__init__` with product cost returned and economic profit summed as
      a waterfall: it fails exactly when an input array is too short, and its
      aggregates are the totals of the per-period lines. */
  function Pricing(p: PricingInputs): (r: Result<PricingResult, PricingError>)
    ensures r.Success? <==> p.Covers()
    ensures r.Failure? ==> r.error == IndexError
    ensures r.Success? ==>
      var q := r.value;
      && |q.sdf| == |q.lad| == |q.grossProfit| == |q.fundingCost| == p.N()
      && |q.standardRiskCost| == |q.capitalCost| == |q.operationalRiskCost| == |q.productCost| == p.N()
      && q.operationalSalesRevenue == Sum(q.grossProfit) + Sum(q.fundingCost)
      && q.riskPrice == Sum(q.standardRiskCost) + Sum(q.capitalCost) + Sum(q.operationalRiskCost)
      && q.economicProfit == q.operationalSalesRevenue + q.riskPrice + Sum(q.productCost)
  {
    if !p.Covers() then Failure(IndexError)
    else
      var sdf := Sdf(p);
      var lad := Lad(p);
      var gp := GrossProfit(p, sdf);
      var fc := FundingCost(p, sdf);
      var hedgingCost := Constant(0.0, p.N());
      var osr := SumOfThreeColumns(gp, fc, hedgingCost);
      var src := StandardRiskCost(p, lad, sdf);
      var cc := CapitalCost(p);
      var orc := OperationalRiskCost(p, gp);
      var riskPrice := SumOfThreeColumns(src, cc, orc);
      var pc := ProductCost(p, gp);
      SumOfZeros(hedgingCost);
      Success(PricingResult(sdf, lad, gp, fc, osr, src, cc, orc, riskPrice, pc, EconomicProfit(osr, riskPrice, pc)))
  }

  /* ---------------------------------------------------------------------- */
  /* Properties of the pricing waterfall                                    */
  /* ---------------------------------------------------------------------- */

  /** At a customer margin equal to the funding rate the drawn part earns
      nothing, and gross profit is the commitment fee on the undrawn part. */
  lemma GrossProfitAtBreakEven(p: PricingInputs, i: int)
    requires p.Covers() && p.customerMargin == p.izv
    requires 0 <= i < p.N()
    ensures var q := Pricing(p).value;
      q.grossProfit[i] == p.commitment[i] * (1.0 - p.expectedUsage[i]) * p.commitmentFee * q.sdf[i]
  {
    var q := Pricing(p).value;
    GrossProfitIsEntry(p, i);
    FeeOnlyAtBreakEven(p.commitment[i], p.expectedUsage[i], p.customerMargin, p.izv, p.commitmentFee, q.sdf[i]);
  }

  /** Gross profit of period `i` is the entry of its inputs and weight. */
  lemma GrossProfitIsEntry(p: PricingInputs, i: int)
    requires p.Covers() && 0 <= i < p.N()
    ensures var q := Pricing(p).value;
      q.grossProfit[i]
      == GrossProfitEntry(p.commitment[i], p.expectedUsage[i], p.customerMargin, p.izv, p.commitmentFee, q.sdf[i])
  {
  }

  /** Scalar step: with no margin over the funding rate only the fee remains. */
  lemma FeeOnlyAtBreakEven(c: real, usage: real, margin: real, izv: real, fee: real, sdf: real)
    requires margin == izv
    ensures GrossProfitEntry(c, usage, margin, izv, fee, sdf) == c * (1.0 - usage) * fee * sdf
  {
    assert usage * (margin - izv) == 0.0;
  }

  /** A period without weight (zero day-count fraction, survival probability
      or end discount factor) earns and costs nothing through `sdf`: its gross
      profit, funding cost and standard-risk cost are 0, and so are the
      operational-risk and product cost shares of that gross profit. */
  lemma WeightlessPeriod(p: PricingInputs, i: int)
    requires p.Covers() && 0 <= i < p.N()
    requires p.dcf[i] == 0.0 || p.survival[i] == 0.0 || p.dfEnd[i] == 0.0
    ensures var q := Pricing(p).value;
      && q.sdf[i] == 0.0 && q.grossProfit[i] == 0.0 && q.fundingCost[i] == 0.0
      && q.standardRiskCost[i] == 0.0 && q.operationalRiskCost[i] == 0.0 && q.productCost[i] == 0.0
  {
    var q := Pricing(p).value;
    assert q.sdf[i] == SdfEntry(p.dcf[i], p.survival[i], p.dfEnd[i]) == 0.0;
    GrossProfitIsEntry(p, i);
  }

  /** Product of three non-negative reals. */
  lemma NonNegativeProduct(a: real, b: real, c: real)
    requires a >= 0.0 && b >= 0.0 && c >= 0.0
    ensures a * b * c >= 0.0
  {
    assert a * b >= 0.0;
  }

  /** Funding, standard-risk and capital cost of a period are never positive
      when every factor they multiply is non-negative. */
  lemma CostsNonPositive(p: PricingInputs, i: int)
    requires p.Covers() && 0 <= i < p.N()
    requires p.commitment[i] >= 0.0 && p.fls[i] >= 0.0 && p.lgd[i] >= 0.0 && p.fdp[i] >= 0.0
    requires p.dcf[i] >= 0.0 && p.survival[i] >= 0.0 && p.dfEnd[i] >= 0.0 && p.discountFactor[i] >= 0.0
    requires p.rwa[i] >= 0.0 && p.capRatio >= 0.0 && p.capReturn >= 0.0
    ensures var q := Pricing(p).value;
      q.fundingCost[i] <= 0.0 && q.standardRiskCost[i] <= 0.0 && q.capitalCost[i] <= 0.0
  {
    var q := Pricing(p).value;
    var sdf := q.sdf[i];
    assert sdf == SdfEntry(p.dcf[i], p.survival[i], p.dfEnd[i]);
    NonNegativeProduct(p.dcf[i], p.survival[i], p.dfEnd[i]);
    assert q.fundingCost[i] == FundingCostEntry(p.commitment[i], p.fls[i], sdf);
    NonNegativeProduct(p.commitment[i], p.fls[i], sdf);
    assert q.lad[i] == p.commitment[i] * p.lgd[i];
    assert q.standardRiskCost[i] == StandardRiskCostEntry(q.lad[i], p.fdp[i], sdf);
    NonNegativeProduct(q.lad[i], p.fdp[i], sdf);
    assert q.capitalCost[i]
      == CapitalCostEntry(p.dcf[i], p.discountFactor[i], p.survival[i], p.rwa[i], p.capRatio, p.capReturn);
    CapitalCostNonPositive(p.dcf[i], p.discountFactor[i], p.survival[i], p.rwa[i], p.capRatio, p.capReturn);
  }

  lemma CapitalCostNonPositive(dcf: real, discount: real, survival: real, rwa: real, capRatio: real, capReturn: real)
    requires dcf >= 0.0 && discount >= 0.0 && survival >= 0.0 && rwa >= 0.0 && capRatio >= 0.0 && capReturn >= 0.0
    ensures CapitalCostEntry(dcf, discount, survival, rwa, capRatio, capReturn) <= 0.0
  {
    NonNegativeProduct(dcf, discount, survival);
    NonNegativeProduct(dcf * discount * survival, rwa, capRatio);
    assert dcf * discount * survival * rwa * capRatio * capReturn >= 0.0;
  }

  /** Capital cost discounts with the `disount_factor` argument: replacing
      `df_end` changes no capital cost entry. */
  lemma CapitalCostIgnoresDfEnd(p: PricingInputs, dfEnd: seq<real>)
    requires p.Covers() && |dfEnd| >= p.N()
    ensures Pricing(p.(dfEnd := dfEnd)).value.capitalCost == Pricing(p).value.capitalCost
  {
  }

  /** Per-period contribution to economic profit: gross profit net of its
      operational-risk and product-cost shares, plus the period's funding,
      standard-risk and capital cost lines. */
  function PeriodContribution(p: PricingInputs, q: PricingResult): (r: seq<real>)
    requires |q.grossProfit| == |q.fundingCost| == |q.standardRiskCost| == |q.capitalCost| == p.N()
    ensures |r| == p.N()
  {
    seq(p.N(), i requires 0 <= i < p.N() =>
      q.grossProfit[i] * (1.0 - p.opRiskWeight * p.capReturn - p.costIncomeRatio)
      + q.fundingCost[i] + q.standardRiskCost[i] + q.capitalCost[i])
  }

  /** The waterfall adds up period by period: economic profit is the sum of the
      periods' contributions. */
  lemma EconomicProfitByPeriod(p: PricingInputs)
    requires p.Covers()
    ensures Pricing(p).value.economicProfit == Sum(PeriodContribution(p, Pricing(p).value))
  {
    ShareLines(p);
    WaterfallOf(p, Pricing(p).value);
  }

  /** The period-by-period sum holds for any result whose aggregates are the
      column totals and whose operational-risk and product cost lines are the
      shares of gross profit. */
  lemma WaterfallOf(p: PricingInputs, q: PricingResult)
    requires |q.grossProfit| == |q.fundingCost| == |q.standardRiskCost| == |q.capitalCost| == p.N()
    requires q.operationalRiskCost == Scale(-(p.opRiskWeight * p.capReturn), q.grossProfit)
    requires q.productCost == Scale(-p.costIncomeRatio, q.grossProfit)
    requires q.operationalSalesRevenue == Sum(q.grossProfit) + Sum(q.fundingCost)
    requires q.riskPrice == Sum(q.standardRiskCost) + Sum(q.capitalCost) + Sum(q.operationalRiskCost)
    requires q.economicProfit == q.operationalSalesRevenue + q.riskPrice + Sum(q.productCost)
    ensures q.economicProfit == Sum(PeriodContribution(p, q))
  {
    var gp, orc, pc := q.grossProfit, q.operationalRiskCost, q.productCost;
    var fc, src, cc := q.fundingCost, q.standardRiskCost, q.capitalCost;
    var lines := Plus(Plus(Plus(Plus(Plus(gp, orc), pc), fc), src), cc);
    forall i | 0 <= i < p.N()
      ensures PeriodContribution(p, q)[i] == lines[i]
    {
      DistributeShare(gp[i], p.opRiskWeight * p.capReturn, p.costIncomeRatio);
      assert Plus(gp, orc)[i] == gp[i] + orc[i];
      assert Plus(Plus(gp, orc), pc)[i] == gp[i] + orc[i] + pc[i];
      assert Plus(Plus(Plus(gp, orc), pc), fc)[i] == gp[i] + orc[i] + pc[i] + fc[i];
    }
    assert PeriodContribution(p, q) == lines;
    SumPlus(Plus(Plus(Plus(Plus(gp, orc), pc), fc), src), cc);
    SumPlus(Plus(Plus(Plus(gp, orc), pc), fc), src);
    SumPlus(Plus(Plus(gp, orc), pc), fc);
    SumPlus(Plus(gp, orc), pc);
    SumPlus(gp, orc);
  }

  /** Scalar step: a period's gross profit net of its two shares. */
  lemma DistributeShare(g: real, w: real, cir: real)
    ensures g * (1.0 - w - cir) == g + -w * g + -cir * g
  {
  }

  /** Operational-risk and product cost are fixed shares of gross profit. */
  lemma ShareLines(p: PricingInputs)
    requires p.Covers()
    ensures var q := Pricing(p).value;
      && q.operationalRiskCost == Scale(-(p.opRiskWeight * p.capReturn), q.grossProfit)
      && q.productCost == Scale(-p.costIncomeRatio, q.grossProfit)
  {
    var q := Pricing(p).value;
    var gp := q.grossProfit;
    forall i | 0 <= i < p.N()
      ensures q.operationalRiskCost[i] == Scale(-(p.opRiskWeight * p.capReturn), gp)[i]
      ensures q.productCost[i] == Scale(-p.costIncomeRatio, gp)[i]
    {
      assert q.operationalRiskCost[i] == OperationalRiskCostEntry(gp[i], p.opRiskWeight, p.capReturn);
      assert q.productCost[i] == ProductCostEntry(gp[i], p.costIncomeRatio);
    }
  }

  /* ---------------------------------------------------------------------- */
  /* Economic profit as written                                             */
  /* ---------------------------------------------------------------------- */

  /** `np.sum(operational_sales_revenue + risk_price + product_cost + sales_steering)`
      with `total` the first two terms: a `None` product cost raises TypeError,
      and an array broadcasts the scalar total onto every period. */
  function EconomicProfitAsWritten(total: real, productCost: Option<seq<real>>): (r: Result<real, PricingError>)
    ensures r.Failure? <==> productCost.None?
  {
    match productCost
    case None => Failure(TypeError)
    case Some(pc) => Success(Sum(Broadcast(total, pc)))
  }

  /** numpy's `total + product_cost + 0`: the scalar added to every entry. */
  function Broadcast(total: real, pc: seq<real>): (r: seq<real>)
    ensures |r| == |pc|
  {
    seq(|pc|, i requires 0 <= i < |pc| => total + pc[i] + 0.0)
  }

  /** `Pricing.__init__` as written: `__calculate_product_cost` fills its array
      but has no `return`, so `product_cost` is `None`. */
  function PricingAsWritten(p: PricingInputs): (r: Result<PricingResult, PricingError>)
    ensures r.Failure?
  {
    if !p.Covers() then Failure(IndexError)
    else
      var sdf := Sdf(p);
      var lad := Lad(p);
      var gp := GrossProfit(p, sdf);
      var fc := FundingCost(p, sdf);
      var osr := SumOfThreeColumns(gp, fc, Constant(0.0, p.N()));
      var src := StandardRiskCost(p, lad, sdf);
      var cc := CapitalCost(p);
      var orc := OperationalRiskCost(p, gp);
      var riskPrice := SumOfThreeColumns(src, cc, orc);
      var productCost: Option<seq<real>> := None;
      match EconomicProfitAsWritten(osr + riskPrice, productCost)
      case Failure(e) => Failure(e)
      case Success(economicProfit) =>
        Success(PricingResult(sdf, lad, gp, fc, osr, src, cc, orc, riskPrice, [], economicProfit))
  }

  /** The constructor as written never completes: it raises TypeError whenever
      the corrected one succeeds, and IndexError where that one does. */
  lemma PricingAsWrittenNeverCompletes(p: PricingInputs)
    ensures PricingAsWritten(p).Failure?
    ensures PricingAsWritten(p).error == (if Pricing(p).Success? then TypeError else IndexError)
  {
  }

  /** With the `return` restored, the broadcast counts the scalar total once
      per period: `N * total + sum(product_cost)`. */
  lemma EconomicProfitBroadcast(total: real, pc: seq<real>)
    ensures EconomicProfitAsWritten(total, Some(pc)) == Success(|pc| as real * total + Sum(pc))
  {
    BroadcastSum(total, pc);
  }

  lemma {:induction false} BroadcastSum(total: real, pc: seq<real>)
    ensures Sum(Broadcast(total, pc)) == |pc| as real * total + Sum(pc)
    decreases |pc|
  {
    if |pc| > 0 {
      var b := Broadcast(total, pc);
      assert b[1..] == Broadcast(total, pc[1..]);
      BroadcastSum(total, pc[1..]);
      assert (|pc| - 1) as real * total + total == |pc| as real * total;
    }
  }

  /** The broadcast agrees with the waterfall only for a single period or a zero
      total. */
  lemma BroadcastAgreesOnlyForOnePeriod(osr: real, riskPrice: real, pc: seq<real>)
    ensures EconomicProfitAsWritten(osr + riskPrice, Some(pc)).value == EconomicProfit(osr, riskPrice, pc)
      <==> |pc| == 1 || osr + riskPrice == 0.0
  {
    EconomicProfitBroadcast(osr + riskPrice, pc);
    ExtraCopies(|pc| as real, osr + riskPrice);
  }

  /** Scalar step: `n * t == t` exactly when `n == 1` or `t == 0`. */
  lemma ExtraCopies(n: real, t: real)
    ensures n * t == t <==> n == 1.0 || t == 0.0
  {
    assert n * t - t == (n - 1.0) * t;
  }

  /** A two-period counterexample: a total of 1 with no product cost yields 2. */
  lemma BroadcastCounterexample()
    ensures EconomicProfitAsWritten(1.0, Some([0.0, 0.0])) == Success(2.0)
    ensures EconomicProfit(1.0, 0.0, [0.0, 0.0]) == 1.0
  {
    EconomicProfitBroadcast(1.0, [0.0, 0.0]);
    SumOfZeros([0.0, 0.0]);
  }
}

=== FILE: schedule.dfy ===
/** The amortisation arithmetic of backend/schedule.py: parsing the tenor and
    frequency strings, the linearly decreasing commitment list of
    `Schedule.get_commitment`, the repayments of `Schedule.get_repayment`, and
    the mid-date and discount-factor columns of `Schedule.init_with_ql`.
    QuantLib is not modelled: the period boundaries (as day serial numbers) and
    the day-count fractions are parameters, and the yield curve is a segment
    list of the `Spline` module. */
module Schedule {
  import opened Wrappers
  import opened Sums
  import opened Spline

  /** The exceptions the schedule code can raise. */
  datatype ScheduleError =
    | IndexError          // a tenor or frequency string shorter than two characters
    | UnsupportedUnit     // ValueError: the tenor is not in years or the frequency not in months
    | NotADigit           // ValueError: `int()` of a character that is not a digit
    | UnsupportedFacility // ValueError: a facility type other than 1
    | ZeroDivision        // ZeroDivisionError: a tenor of zero years, or a zero discount denominator
    | ZeroStep            // ValueError: `range()` with a step of zero months
    | RateUnavailable     // TypeError: the curve returned its out-of-range string
    | LengthMismatch      // pandas: a column whose length is not the number of periods
    | NotAnInteger        // ValueError: `int()` of the tenor's text before its `Y`

  /* ---------------------------------------------------------------------- */
  /* Tenor and frequency strings                                            */
  /* ---------------------------------------------------------------------- */

  predicate IsDigit(ch: char)
  {
    '0' <= ch <= '9'
  }

  /** The character that spells the digit `d`. */
  function DigitChar(d: nat): (ch: char)
    requires d < 10
    ensures IsDigit(ch)
  {
    ('0' as int + d) as char
  }

  /** `int(ch)` for a single character. */
  function DigitValue(ch: char): (r: Result<nat, ScheduleError>)
    ensures r.Success? <==> IsDigit(ch)
    ensures r.Success? ==> r.value < 10 && DigitChar(r.value) == ch
    ensures r.Failure? ==> r.error == NotADigit
  {
    if IsDigit(ch) then Success((ch as int - '0' as int) as nat) else Failure(NotADigit)
  }

  /** Reading back a spelled digit gives the digit. */
  lemma DigitRoundTrip(d: nat)
    requires d < 10
    ensures DigitValue(DigitChar(d)) == Success(d)
  {
  }

  /** Facility terms: the tenor in years and the payment frequency in months. */
  datatype Terms = Terms(years: nat, months: nat)

  /** The strings `get_commitment` accepts: a digit then `Y`, and a digit then `M`. */
  predicate WellFormedTerms(tenor: string, frequency: string)
  {
    && |tenor| >= 2 && tenor[1] == 'Y' && IsDigit(tenor[0])
    && |frequency| >= 2 && frequency[1] == 'M' && IsDigit(frequency[0])
  }

  /** The unit checks and the two `int()` conversions of `get_commitment`, in
      the order Python evaluates them: the tenor's unit, then the frequency's
      unit (an index error when a string is too short), then the digits. Only
      the first character is read, so a two-digit amount puts a digit where
      the unit belongs and is rejected. */
  function ParseTerms(tenor: string, frequency: string): (r: Result<Terms, ScheduleError>)
    ensures r.Success? <==> WellFormedTerms(tenor, frequency)
    ensures r.Success? ==>
      r.value.years < 10 && r.value.months < 10
      && tenor[0] == DigitChar(r.value.years) && frequency[0] == DigitChar(r.value.months)
    ensures |tenor| < 2 ==> r == Failure(IndexError)
    ensures |tenor| >= 2 && tenor[1] != 'Y' ==> r == Failure(UnsupportedUnit)
    ensures |tenor| >= 2 && tenor[1] == 'Y' && |frequency| < 2 ==> r == Failure(IndexError)
    ensures |tenor| >= 2 && tenor[1] == 'Y' && |frequency| >= 2 && frequency[1] != 'M' ==> r == Failure(UnsupportedUnit)
  {
    if |tenor| < 2 then Failure(IndexError)
    else if tenor[1] != 'Y' then Failure(UnsupportedUnit)
    else if |frequency| < 2 then Failure(IndexError)
    else if frequency[1] != 'M' then Failure(UnsupportedUnit)
    else
      var years :- DigitValue(tenor[0]);
      var months :- DigitValue(frequency[0]);
      Success(Terms(years, months))
  }

  /** Spelling terms of one digit each and parsing them back gives the terms. */
  lemma ParseSpelledTerms(years: nat, months: nat)
    requires years < 10 && months < 10
    ensures ParseTerms([DigitChar(years), 'Y'], [DigitChar(months), 'M']) == Success(Terms(years, months))
  {
    DigitRoundTrip(years);
    DigitRoundTrip(months);
  }

  /** Ten years and twelve months are rejected as unsupported units. */
  lemma TwoDigitTermsRejected()
    ensures ParseTerms("10Y", "3M") == Failure(UnsupportedUnit)
    ensures ParseTerms("5Y", "12M") == Failure(UnsupportedUnit)
  {
  }

  /** Everything `get_commitment` checks before it starts the loop: the parsed
      terms, the facility type, a nonzero tenor (the rate divides by it) and a
      nonzero frequency (the `range` step). */
  function CheckedTerms(facilityType: int, tenor: string, frequency: string): (r: Result<Terms, ScheduleError>)
    ensures r.Success? <==>
      WellFormedTerms(tenor, frequency) && facilityType == 1 && tenor[0] != '0' && frequency[0] != '0'
    ensures r.Success? ==> 1 <= r.value.years < 10 && 1 <= r.value.months < 10
    ensures ParseTerms(tenor, frequency).Failure? ==> r == Failure(ParseTerms(tenor, frequency).error)
    ensures ParseTerms(tenor, frequency).Success? && facilityType != 1 ==> r == Failure(UnsupportedFacility)
  {
    var terms :- ParseTerms(tenor, frequency);
    if facilityType != 1 then Failure(UnsupportedFacility)
    else if terms.years == 0 then Failure(ZeroDivision)
    else if terms.months == 0 then Failure(ZeroStep)
    else Success(terms)
  }

  /* ---------------------------------------------------------------------- */
  /* The year count `init_with_ql` reads from the tenor                     */
  /* ---------------------------------------------------------------------- */

  /** `s.split(sep)[0]`: the text before the first `sep`, or all of `s` when
      `sep` does not occur. */
  function SplitHead(s: string, sep: char): (h: string)
    ensures |h| <= |s| && h == s[..|h|]
    ensures sep !in h
    ensures |h| < |s| ==> s[|h|] == sep
  {
    if |s| == 0 || s[0] == sep then [] else [s[0]] + SplitHead(s[1..], sep)
  }

  /** The ASCII characters `int()` skips before and after a number. */
  predicate IsSpace(ch: char)
  {
    ch == ' ' || '\t' <= ch <= '\r' || '\U{1C}' <= ch <= '\U{1F}'
  }

  /** `s.strip()` over ASCII whitespace. */
  function Strip(s: string): (t: string)
    ensures |t| > 0 ==> !IsSpace(t[0]) && !IsSpace(t[|t| - 1])
  {
    StripEnd(StripStart(s))
  }

  function StripStart(s: string): (t: string)
    ensures |t| <= |s| && t == s[|s| - |t|..]
    ensures |t| > 0 ==> !IsSpace(t[0])
  {
    if |s| > 0 && IsSpace(s[0]) then StripStart(s[1..]) else s
  }

  function StripEnd(s: string): (t: string)
    ensures |t| <= |s| && t == s[..|t|]
    ensures |t| > 0 ==> !IsSpace(t[|t| - 1])
  {
    if |s| > 0 && IsSpace(s[|s| - 1]) then StripEnd(s[..|s| - 1]) else s
  }

  /** Text that starts and ends with a non-space is its own strip. */
  lemma StripUnpadded(s: string)
    requires |s| > 0 ==> !IsSpace(s[0]) && !IsSpace(s[|s| - 1])
    ensures Strip(s) == s
  {
  }

  /** Decimal digits, where an underscore may stand between two digits. */
  predicate IsDigitGroups(s: string)
  {
    && |s| >= 1 && IsDigit(s[0]) && IsDigit(s[|s| - 1])
    && forall k :: 0 <= k < |s| && !IsDigit(s[k]) ==>
         s[k] == '_' && 0 < k < |s| - 1 && IsDigit(s[k - 1]) && IsDigit(s[k + 1])
  }

  /** The number digit groups spell; underscores are skipped. */
  function GroupsValue(s: string): nat
  {
    if |s| == 0 then 0
    else if IsDigit(s[|s| - 1]) then 10 * GroupsValue(s[..|s| - 1]) + DigitValue(s[|s| - 1]).value
    else GroupsValue(s[..|s| - 1])
  }

  /** The stripped text `int()` accepts in base 10: digit groups, signed or not. */
  predicate IsIntText(t: string)
  {
    IsDigitGroups(t) || (|t| >= 1 && (t[0] == '+' || t[0] == '-') && IsDigitGroups(t[1..]))
  }

  /** `int(s)` for a string. */
  function PyInt(s: string): (r: Result<int, ScheduleError>)
    ensures r.Success? <==> IsIntText(Strip(s))
    ensures r.Failure? ==> r.error == NotAnInteger
  {
    var t := Strip(s);
    if IsDigitGroups(t) then Success(GroupsValue(t))
    else if |t| >= 1 && t[0] == '+' && IsDigitGroups(t[1..]) then Success(GroupsValue(t[1..]))
    else if |t| >= 1 && t[0] == '-' && IsDigitGroups(t[1..]) then Success(0 - GroupsValue(t[1..]) as int)
    else Failure(NotAnInteger)
  }

  /** The decimal spelling of a natural number, most significant digit first. */
  function Decimal(n: nat): (s: string)
    ensures |s| >= 1
    decreases n
  {
    if n < 10 then [DigitChar(n)] else Decimal(n / 10) + [DigitChar(n % 10)]
  }

  /** `str(n)` for an integer. */
  function IntText(n: int): string
  {
    if n < 0 then "-" + Decimal(-n) else Decimal(n)
  }

  /** The decimal spelling is a single digit group that spells the number. */
  lemma {:induction false} DecimalDigits(n: nat)
    ensures forall k :: 0 <= k < |Decimal(n)| ==> IsDigit(Decimal(n)[k])
    ensures GroupsValue(Decimal(n)) == n
    decreases n
  {
    if n >= 10 {
      var s := Decimal(n);
      DecimalDigits(n / 10);
      assert s[..|s| - 1] == Decimal(n / 10);
    }
  }

  /** Reading back the spelling of an integer gives the integer. */
  lemma PyIntRoundTrip(n: int)
    ensures PyInt(IntText(n)) == Success(n)
  {
    var m := if n < 0 then -n else n;
    DecimalDigits(m);
    ReadDigits(Decimal(m), n < 0);
  }

  /** `int()` of a run of digits, with or without a minus sign in front. */
  lemma ReadDigits(s: string, negative: bool)
    requires |s| >= 1 && forall k :: 0 <= k < |s| ==> IsDigit(s[k])
    ensures PyInt(if negative then "-" + s else s) == Success(if negative then 0 - GroupsValue(s) as int else GroupsValue(s))
  {
    assert IsDigitGroups(s);
    if negative {
      ReadSigned(s);
    } else {
      StripUnpadded(s);
    }
  }

  /** `int()` of a run of digits after a minus sign. */
  lemma ReadSigned(s: string)
    requires IsDigitGroups(s)
    ensures PyInt("-" + s) == Success(0 - GroupsValue(s) as int)
  {
    var t := "-" + s;
    assert t[0] == '-' && t[|t| - 1] == s[|s| - 1];
    StripUnpadded(t);
    assert t[1..] == s;
    assert !IsDigit(t[0]);
  }

  /** `int(tenor.split("Y")[0])`: the year count `init_with_ql` reads from the
      tenor before anything else. Only QuantLib uses the value, but its
      `ValueError` reaches the caller first. For the tenors `get_commitment`
      accepts it reads the same digit. */
  function TenorYears(tenor: string): (r: Result<int, ScheduleError>)
    ensures 'Y' !in tenor ==> r == PyInt(tenor)
    ensures |tenor| >= 2 && tenor[1] == 'Y' && IsDigit(tenor[0]) ==> r == Success(DigitValue(tenor[0]).value)
  {
    TenorHead(tenor);
    PyInt(SplitHead(tenor, 'Y'))
  }

  /** The text before the tenor's first `Y`: all of it when there is none, and
      the digit of a tenor `get_commitment` accepts, which `int()` reads. */
  lemma TenorHead(tenor: string)
    ensures 'Y' !in tenor ==> SplitHead(tenor, 'Y') == tenor
    ensures |tenor| >= 2 && tenor[1] == 'Y' && IsDigit(tenor[0]) ==>
      PyInt(SplitHead(tenor, 'Y')) == Success(DigitValue(tenor[0]).value)
  {
    var head := SplitHead(tenor, 'Y');
    if |head| < |tenor| {
      assert tenor[|head|] in tenor;
    }
    if |tenor| >= 2 && tenor[1] == 'Y' && IsDigit(tenor[0]) {
      assert tenor[0] != 'Y';
      assert head == [tenor[0]];
      ReadDigits(head, false);
      assert head[..0] == [];
    }
  }

  /** An empty tenor has no year count. */
  lemma EmptyTenorRejected()
    ensures TenorYears("") == Failure(NotAnInteger)
  {
    NotANumber("");
  }

  /** A tenor without `Y` is read whole, and a letter is no number. */
  lemma LetterTenorRejected()
    ensures TenorYears("X") == Failure(NotAnInteger)
  {
    NotANumber("X");
  }

  /** A bare `Y` leaves nothing before it to read. */
  lemma BareYearRejected()
    ensures TenorYears("Y") == Failure(NotAnInteger)
  {
    assert SplitHead("Y", 'Y') == [];
  }

  /** A tenor in months is read whole, and `5M` is no number. */
  lemma MonthTenorRejected()
    ensures TenorYears("5M") == Failure(NotAnInteger)
  {
    NotANumber("5M");
  }

  /** Text with no digit at its start, or ending in a letter, is no number. */
  lemma NotANumber(s: string)
    requires 'Y' !in s
    requires |s| == 0 || (!IsSpace(s[0]) && !IsSpace(s[|s| - 1]) && !IsDigit(s[|s| - 1]))
    ensures TenorYears(s) == Failure(NotAnInteger)
  {
    TenorHead(s);
    StripUnpadded(s);
  }

  /** The text before `Y` in `10Y`. */
  lemma TenYearsHead()
    ensures SplitHead("10Y", 'Y') == "10"
  {
  }

  /** `int("10")` is ten. */
  lemma ReadsTen()
    ensures PyInt("10") == Success(10)
  {
    PyIntRoundTrip(10);
    assert Decimal(1) == "1";
    assert Decimal(10) == Decimal(1) + [DigitChar(0)] == "10";
  }

  /** The year count reads ten years, which `get_commitment` goes on to
      reject. */
  lemma TenorYearsReadsTen()
    ensures TenorYears("10Y") == Success(10)
  {
    TenYearsHead();
    ReadsTen();
  }

  /* ---------------------------------------------------------------------- */
  /* Python's range and integer division                                    */
  /* ---------------------------------------------------------------------- */

  /** `range(start, stop, step)` for a positive step, as the list of its values. */
  function PyRange(start: int, stop: int, step: int): (r: seq<int>)
    requires step > 0
    ensures forall k :: 0 <= k < |r| ==> start <= r[k] < stop
    decreases stop - start
  {
    if start >= stop then [] else [start] + PyRange(start + step, stop, step)
  }

  /** The values of `range` start at `start`, go up by `step`, and stop at the
      last one below `stop`. */
  lemma {:induction false} RangeProgression(start: int, stop: int, step: int)
    requires step > 0
    ensures var r := PyRange(start, stop, step);
      && (|r| > 0 <==> start < stop)
      && (|r| > 0 ==> r[0] == start && stop <= r[|r| - 1] + step)
      && (forall k :: 0 < k < |r| ==> r[k] == r[k - 1] + step)
    decreases stop - start
  {
    if start < stop {
      RangeProgression(start + step, stop, step);
    }
  }

  /** `len(range(start, stop, step))` for a positive step, as CPython computes it. */
  function RangeLength(start: int, stop: int, step: int): nat
    requires step > 0
  {
    if start < stop then (stop - start + step - 1) / step else 0
  }

  /** The quotient is the `q` with `q * d <= a < (q + 1) * d`. */
  lemma QuotientIs(a: int, d: int, q: int)
    requires d > 0 && q * d <= a < q * d + d
    ensures a / d == q
  {
    var p, r := a / d, a % d;
    assert a == p * d + r && 0 <= r < d;
    if p < q {
      assert (q - p) * d >= d by { MultiplyAtLeast(q - p, d); }
      assert false;
    } else if p > q {
      assert (p - q) * d >= d by { MultiplyAtLeast(p - q, d); }
      assert false;
    }
  }

  lemma MultiplyAtLeast(k: int, d: int)
    requires k >= 1 && d > 0
    ensures k * d >= d
  {
    assert k * d == (k - 1) * d + d;
  }

  /** The list model of `range` has the length CPython reports. */
  lemma {:induction false} RangeLengthIs(start: int, stop: int, step: int)
    requires step > 0
    ensures |PyRange(start, stop, step)| == RangeLength(start, stop, step)
    decreases stop - start
  {
    if start < stop {
      RangeLengthIs(start + step, stop, step);
      var q := RangeLength(start + step, stop, step);
      assert (q + 1) * step == q * step + step;
      if start + step < stop {
        assert q * step <= stop - start - 1 < q * step + step by {
          QuotientIs(stop - start - 1, step, q);
        }
      }
      QuotientIs(stop - start + step - 1, step, q + 1);
    }
  }

  /* ---------------------------------------------------------------------- */
  /* Commitment                                                             */
  /* ---------------------------------------------------------------------- */

  /** The installment `frequency / (tenor * 12) * bank_comitment0`. */
  function InstallmentRate(terms: Terms, c0: real): real
    requires terms.years > 0
  {
    (terms.months as real / (12 * terms.years) as real) * c0
  }

  /** One installment per `frequency` months repays the opening commitment
      over the `12 * tenor` months of the facility. */
  lemma InstallmentsRepay(terms: Terms, c0: real)
    requires terms.years > 0
    ensures InstallmentRate(terms, c0) * (12 * terms.years) as real == terms.months as real * c0
  {
    var t := (12 * terms.years) as real;
    assert terms.months as real / t * t == terms.months as real;
  }

  /** The loop of `get_commitment`: the opening balance, then one balance per
      pass, each `rate` below the one before. */
  function Amortize(balance: real, rate: real, passes: nat): (r: seq<real>)
    ensures |r| == passes + 1 && r[0] == balance
    decreases passes
  {
    if passes == 0 then [balance] else [balance] + Amortize(balance - rate, rate, passes - 1)
  }

  /** Repeated subtraction is linear: balance `k` is `k` installments below the
      opening balance. */
  lemma {:induction false} AmortizeLinear(balance: real, rate: real, passes: nat, k: int)
    requires 0 <= k <= passes
    ensures Amortize(balance, rate, passes)[k] == balance - k as real * rate
    decreases passes
  {
    if k > 0 {
      AmortizeLinear(balance - rate, rate, passes - 1, k - 1);
      assert (k - 1) as real * rate == k as real * rate - rate;
    }
  }

  /** `Schedule.get_commitment` as written: one balance for the opening and one
      per value of `range(1, 12 * tenor - frequency, frequency)`. */
  function GetCommitmentAsWritten(facilityType: int, c0: real, tenor: string, frequency: string)
    : (r: Result<seq<real>, ScheduleError>)
    ensures r.Failure? <==> CheckedTerms(facilityType, tenor, frequency).Failure?
    ensures r.Success? ==> |r.value| >= 1 && r.value[0] == c0
  {
    var terms :- CheckedTerms(facilityType, tenor, frequency);
    var passes := PyRange(1, 12 * terms.years - terms.months, terms.months);
    Success(Amortize(c0, InstallmentRate(terms, c0), |passes|))
  }

  /** `Schedule.get_commitment` with the loop bound corrected to
      `range(frequency, 12 * tenor, frequency)`: one balance per period of
      `frequency` months that starts before the tenor ends. The rest of the model
      uses this definition. */
  function GetCommitment(facilityType: int, c0: real, tenor: string, frequency: string)
    : (r: Result<seq<real>, ScheduleError>)
    ensures r.Failure? <==> CheckedTerms(facilityType, tenor, frequency).Failure?
    ensures r.Success? ==> |r.value| >= 1 && r.value[0] == c0
  {
    var terms :- CheckedTerms(facilityType, tenor, frequency);
    var passes := PyRange(terms.months, 12 * terms.years, terms.months);
    Success(Amortize(c0, InstallmentRate(terms, c0), |passes|))
  }

  /** Number of balances of the corrected commitment list: the fewest periods
      of `f` months covering `12 * t` months. */
  lemma CommitmentLength(facilityType: int, c0: real, tenor: string, frequency: string)
    requires GetCommitment(facilityType, c0, tenor, frequency).Success?
    ensures var terms := CheckedTerms(facilityType, tenor, frequency).value;
      var count := |GetCommitment(facilityType, c0, tenor, frequency).value|;
      (count - 1) * terms.months < 12 * terms.years <= count * terms.months
  {
    var terms := CheckedTerms(facilityType, tenor, frequency).value;
    var t, f := 12 * terms.years, terms.months;
    RangeLengthIs(f, t, f);
    var count := |GetCommitment(facilityType, c0, tenor, frequency).value|;
    assert count == 1 + RangeLength(f, t, f);
    CeilingBounds(t, f, count - 1);
  }

  /** `1 + len(range(f, t, f))` periods of `f` months cover `t` months, and one
      fewer does not. */
  lemma CeilingBounds(t: int, f: int, passes: int)
    requires t >= 1 && f >= 1 && passes == RangeLength(f, t, f)
    ensures passes * f < t <= (passes + 1) * f
  {
    if f < t {
      var q := passes;
      var a := t - f + f - 1;
      assert q == a / f;
      assert a == q * f + a % f && 0 <= a % f < f;
      assert (q + 1) * f == q * f + f;
    }
  }

  /** Number of balances of the commitment list as written: the fewest periods
      of `f` months covering `12 * t - 1` months, one month short of the tenor. */
  lemma CommitmentLengthAsWritten(facilityType: int, c0: real, tenor: string, frequency: string)
    requires GetCommitmentAsWritten(facilityType, c0, tenor, frequency).Success?
    ensures var terms := CheckedTerms(facilityType, tenor, frequency).value;
      var count := |GetCommitmentAsWritten(facilityType, c0, tenor, frequency).value|;
      (count - 1) * terms.months < 12 * terms.years - 1 <= count * terms.months
  {
    var terms := CheckedTerms(facilityType, tenor, frequency).value;
    var t, f := 12 * terms.years, terms.months;
    var count := |GetCommitmentAsWritten(facilityType, c0, tenor, frequency).value|;
    assert count == |PyRange(1, t - f, f)| + 1;
    RangeLengthIs(1, t - f, f);
    AsWrittenBounds(t, f, count);
  }

  /** `1 + len(range(1, t - f, f))` periods of `f` months cover `t - 1` months,
      and one fewer does not. */
  lemma AsWrittenBounds(t: int, f: int, count: int)
    requires 1 <= f < t - 1 && count == RangeLength(1, t - f, f) + 1
    ensures (count - 1) * f < t - 1 <= count * f
  {
    var a := t - 2;
    var passes := count - 1;
    assert passes == a / f;
    assert a == (a / f) * f + a % f && 0 <= a % f < f;
    assert count * f == passes * f + f;
  }

  /** The corrected list holds the same balances as the one as written, plus a
      final one whenever the list as written is short. */
  lemma CommitmentExtendsAsWritten(facilityType: int, c0: real, tenor: string, frequency: string)
    requires GetCommitment(facilityType, c0, tenor, frequency).Success?
    ensures var fixed := GetCommitment(facilityType, c0, tenor, frequency).value;
      var written := GetCommitmentAsWritten(facilityType, c0, tenor, frequency).value;
      |written| <= |fixed| && written == fixed[..|written|]
  {
    var terms := CheckedTerms(facilityType, tenor, frequency).value;
    var rate := InstallmentRate(terms, c0);
    var fixed := GetCommitment(facilityType, c0, tenor, frequency).value;
    var written := GetCommitmentAsWritten(facilityType, c0, tenor, frequency).value;
    CommitmentLength(facilityType, c0, tenor, frequency);
    CommitmentLengthAsWritten(facilityType, c0, tenor, frequency);
    FewerPeriods(12 * terms.years, terms.months, |written|, |fixed|);
    forall k | 0 <= k < |written|
      ensures written[k] == fixed[k]
    {
      AmortizeLinear(c0, rate, |written| - 1, k);
      AmortizeLinear(c0, rate, |fixed| - 1, k);
    }
  }

  /** A count of `f`-month periods that fits under `t - 1` months is at most one
      that covers `t` months. */
  lemma FewerPeriods(t: int, f: int, w: int, c: int)
    requires f >= 1
    requires (w - 1) * f < t - 1 && (c - 1) * f < t <= c * f
    ensures w <= c
  {
    if w > c {
      assert false;
    }
  }

  /** The off-by-one of the loop as written: it yields one balance too few
      exactly when the frequency is one month, or when twelve times the tenor
      leaves a remainder of one month after whole periods (`"3Y"` with `"5M"`,
      `"3Y"` with `"7M"`), and the right number otherwise. */
  lemma CommitmentOffByOne(facilityType: int, c0: real, tenor: string, frequency: string)
    requires GetCommitment(facilityType, c0, tenor, frequency).Success?
    ensures var terms := CheckedTerms(facilityType, tenor, frequency).value;
      var fixed := GetCommitment(facilityType, c0, tenor, frequency).value;
      var written := GetCommitmentAsWritten(facilityType, c0, tenor, frequency).value;
      |written| == |fixed| - (if terms.months == 1 || (12 * terms.years) % terms.months == 1 then 1 else 0)
  {
    var terms := CheckedTerms(facilityType, tenor, frequency).value;
    var t, f := 12 * terms.years, terms.months;
    var fixed := GetCommitment(facilityType, c0, tenor, frequency).value;
    var written := GetCommitmentAsWritten(facilityType, c0, tenor, frequency).value;
    CommitmentLength(facilityType, c0, tenor, frequency);
    CommitmentLengthAsWritten(facilityType, c0, tenor, frequency);
    OffByOneCounts(t, f, |fixed|, |written|);
  }

  /** The number of `f`-month periods covering `t - 1` months against the number
      covering `t` months. */
  lemma OffByOneCounts(t: int, f: int, c: int, w: int)
    requires f >= 1 && t >= 12
    requires (c - 1) * f < t <= c * f
    requires (w - 1) * f < t - 1 <= w * f
    ensures w == c - (if f == 1 || t % f == 1 then 1 else 0)
  {
    CoveringCount(t, f, t / f, t % f, c, w);
  }

  /** Both period counts from the Euclidean split `t == k * f + r`. */
  lemma CoveringCount(t: int, f: int, k: int, r: int, c: int, w: int)
    requires f >= 1 && t >= 12 && t == k * f + r && 0 <= r < f
    requires (c - 1) * f < t <= c * f
    requires (w - 1) * f < t - 1 <= w * f
    ensures w == c - (if f == 1 || r == 1 then 1 else 0)
  {
    var cc := if r == 0 then k else k + 1;
    var ww := if r >= 2 then k + 1 else if r == 1 then k else if f == 1 then k - 1 else k;
    assert (k - 1) * f == k * f - f && (k + 1) * f == k * f + f && (k - 2) * f == k * f - 2 * f;
    UniqueCount(t, f, c, cc);
    UniqueCount(t - 1, f, w, ww);
  }

  /** The number of `f`-month periods covering `t` months is unique. */
  lemma UniqueCount(t: int, f: int, c: int, d: int)
    requires f >= 1
    requires (c - 1) * f < t <= c * f
    requires (d - 1) * f < t <= d * f
    ensures c == d
  {
    if c < d {
      assert false;
    } else if c > d {
      assert false;
    }
  }

  /** Balance `k` of the corrected list is `k` installments below the opening
      commitment. */
  lemma CommitmentValues(facilityType: int, c0: real, tenor: string, frequency: string, k: int)
    requires GetCommitment(facilityType, c0, tenor, frequency).Success?
    requires 0 <= k < |GetCommitment(facilityType, c0, tenor, frequency).value|
    ensures var terms := CheckedTerms(facilityType, tenor, frequency).value;
      GetCommitment(facilityType, c0, tenor, frequency).value[k] == c0 - k as real * InstallmentRate(terms, c0)
  {
    var terms := CheckedTerms(facilityType, tenor, frequency).value;
    var rate := InstallmentRate(terms, c0);
    var passes := |PyRange(terms.months, 12 * terms.years, terms.months)|;
    CommitmentIsAmortized(facilityType, c0, tenor, frequency);
    AmortizeLinear(c0, rate, passes, k);
  }

  /** The corrected list is the amortization of the opening commitment by one
      installment per pass of the loop. */
  lemma CommitmentIsAmortized(facilityType: int, c0: real, tenor: string, frequency: string)
    requires GetCommitment(facilityType, c0, tenor, frequency).Success?
    ensures var terms := CheckedTerms(facilityType, tenor, frequency).value;
      GetCommitment(facilityType, c0, tenor, frequency).value
      == Amortize(c0, InstallmentRate(terms, c0), |PyRange(terms.months, 12 * terms.years, terms.months)|)
  {
  }

  /** When the frequency divides the tenor, the corrected loop ends on a single
      installment, so the last repayment pays exactly one installment. The
      installment is any rate that repays `c0` over `t` months, one per `f`
      months, as `InstallmentsRepay` shows `InstallmentRate` does. */
  lemma CommitmentEndsOnInstallment(t: int, f: int, c0: real, rate: real)
    requires t >= 1 && f >= 1 && t % f == 0
    requires rate * t as real == f as real * c0
    ensures var balances := Amortize(c0, rate, |PyRange(f, t, f)|);
      balances[|balances| - 1] == rate
  {
    var passes := |PyRange(f, t, f)|;
    var n := passes + 1;
    assert t == n * f by {
      RangeLengthIs(f, t, f);
      CeilingBounds(t, f, passes);
      PeriodsOfDivisor(t, f, n);
    }
    RateTimesCount(f, t, n, c0, rate);
    LastBalanceIsRate(c0, rate, n, Amortize(c0, rate, passes));
  }

  /** `n` installments that repay `c0` over `t` months, one per `f` months,
      add up to `c0` when `n` periods of `f` months make up the `t` months. */
  lemma RateTimesCount(f: int, t: int, n: int, c0: real, rate: real)
    requires f >= 1 && n >= 1 && t == n * f
    requires rate * t as real == f as real * c0
    ensures c0 == n as real * rate
  {
    CastProduct(n, f);
    CancelPeriod(f as real, n as real, c0, rate);
  }

  /** Scalar step of `RateTimesCount` over the reals. */
  lemma CancelPeriod(f: real, n: real, c0: real, rate: real)
    requires f >= 1.0
    requires rate * (n * f) == f * c0
    ensures c0 == n * rate
  {
    assert (n * rate - c0) * f == 0.0;
  }

  /** An amortization over `n` periods whose installments add up to the
      opening balance ends on one installment. */
  lemma LastBalanceIsRate(c0: real, rate: real, n: int, balances: seq<real>)
    requires n >= 1 && balances == Amortize(c0, rate, n - 1)
    requires c0 == n as real * rate
    ensures balances[n - 1] == rate
  {
    AmortizeLinear(c0, rate, n - 1, n - 1);
    assert (n - 1) as real * rate == n as real * rate - rate;
  }

  /** When `f` divides `t`, the covering count is the quotient. */
  lemma PeriodsOfDivisor(t: int, f: int, n: int)
    requires f >= 1 && t % f == 0
    requires (n - 1) * f < t <= n * f
    ensures t == n * f
  {
    var k := t / f;
    assert t == k * f;
    assert (k - 1) * f == k * f - f;
    UniqueCount(t, f, n, k);
  }

  /** Converting a product to a real multiplies the converted factors. */
  lemma {:induction false} CastProduct(a: nat, b: int)
    ensures (a * b) as real == a as real * b as real
  {
    if a > 0 {
      CastProduct(a - 1, b);
      assert a * b == (a - 1) * b + b;
      assert a as real * b as real == (a - 1) as real * b as real + b as real;
    }
  }

  /** Five years paid quarterly: twenty balances, as written and corrected. */
  lemma QuarterlyOverFiveYears()
    ensures |GetCommitmentAsWritten(1, 1000000.0, "5Y", "3M").value| == 20
    ensures |GetCommitment(1, 1000000.0, "5Y", "3M").value| == 20
  {
    assert CheckedTerms(1, "5Y", "3M") == Success(Terms(5, 3));
    CommitmentLengthAsWritten(1, 1000000.0, "5Y", "3M");
    CommitmentLength(1, 1000000.0, "5Y", "3M");
  }

  /** The off-by-one on concrete terms: monthly over five years yields 59
      balances instead of 60, and every five months over three years 7 instead
      of 8. */
  lemma MonthlyOffByOne()
    ensures |GetCommitmentAsWritten(1, 1000000.0, "5Y", "1M").value| == 59
    ensures |GetCommitment(1, 1000000.0, "5Y", "1M").value| == 60
    ensures |GetCommitmentAsWritten(1, 1000000.0, "3Y", "5M").value| == 7
    ensures |GetCommitment(1, 1000000.0, "3Y", "5M").value| == 8
  {
    assert CheckedTerms(1, "5Y", "1M") == Success(Terms(5, 1));
    CommitmentLengthAsWritten(1, 1000000.0, "5Y", "1M");
    CommitmentLength(1, 1000000.0, "5Y", "1M");
    assert CheckedTerms(1, "3Y", "5M") == Success(Terms(3, 5));
    CommitmentLengthAsWritten(1, 1000000.0, "3Y", "5M");
    CommitmentLength(1, 1000000.0, "3Y", "5M");
  }

  /* ---------------------------------------------------------------------- */
  /* Repayment                                                              */
  /* ---------------------------------------------------------------------- */

  /** `Schedule.get_repayment`: the drop in commitment from each period to the
      next, and the whole remaining commitment in the last period. */
  function GetRepayment(c: seq<real>): (r: seq<real>)
    ensures |r| == |c|
  {
    seq(|c|, i requires 0 <= i < |c| => if i < |c| - 1 then c[i] - c[i + 1] else c[i])
  }

  /** Balance outstanding at each period of a repayment plan: the repayments
      still to come. */
  function Outstanding(r: seq<real>): (c: seq<real>)
    ensures |c| == |r|
  {
    seq(|r|, i requires 0 <= i < |r| => Sum(r[i..]))
  }

  /** The repayments from period `i` on add up to the commitment of period `i`. */
  lemma {:induction false} RepaymentsFrom(c: seq<real>, i: int)
    requires 0 <= i < |c|
    ensures Sum(GetRepayment(c)[i..]) == c[i]
    decreases |c| - i
  {
    var r := GetRepayment(c);
    assert r[i..] == [r[i]] + r[i + 1..];
    if i < |c| - 1 {
      RepaymentsFrom(c, i + 1);
    } else {
      assert r[i + 1..] == [];
    }
  }

  /** Amortisation conservation: the repayments add up to the opening commitment. */
  lemma RepaymentsTelescope(c: seq<real>)
    requires |c| >= 1
    ensures Sum(GetRepayment(c)) == c[0]
  {
    RepaymentsFrom(c, 0);
    assert GetRepayment(c)[0..] == GetRepayment(c);
  }

  /** Repayments determine the commitments: the outstanding balance of the
      repayment plan is the commitment list. */
  lemma RepaymentInverse(c: seq<real>)
    ensures Outstanding(GetRepayment(c)) == c
  {
    forall i | 0 <= i < |c|
      ensures Outstanding(GetRepayment(c))[i] == c[i]
    {
      RepaymentsFrom(c, i);
    }
  }

  /** And commitments determine the repayments: the repayments of the
      outstanding balances are the plan itself. */
  lemma OutstandingInverse(r: seq<real>)
    ensures GetRepayment(Outstanding(r)) == r
  {
    var c := Outstanding(r);
    forall i | 0 <= i < |r|
      ensures GetRepayment(c)[i] == r[i]
    {
      var s := r[i..];
      assert s[1..] == r[i + 1..];
      assert Sum(s) == r[i] + Sum(r[i + 1..]);
      if i == |r| - 1 {
        assert r[i + 1..] == [];
      }
    }
  }

  /** Each repayment of a list that never increases is non-negative, as long as
      the final commitment is. */
  lemma RepaymentsNonNegative(c: seq<real>)
    requires forall i, j :: 0 <= i <= j < |c| ==> c[j] <= c[i]
    requires |c| >= 1 ==> c[|c| - 1] >= 0.0
    ensures forall i :: 0 <= i < |c| ==> GetRepayment(c)[i] >= 0.0
  {
  }

  /* ---------------------------------------------------------------------- */
  /* Mid-dates and discount factors                                         */
  /* ---------------------------------------------------------------------- */

  /** The mid-date `(start + end) // 2` of a period, as a day serial number;
      Python's floor division by 2 is Euclidean division here. */
  function MidDate(start: int, end: int): (mid: int)
    ensures 2 * mid <= start + end < 2 * mid + 2
    ensures start <= end ==> start <= mid <= end
  {
    (start + end) / 2
  }

  /** The simple-interest discount factor `1 / (1 + rate * dcf)`. A rate the
      curve cannot supply is the curve's out-of-range string, which makes the
      product a type error. The comprehension iterates pandas columns, which
      yield Python floats, so a zero denominator raises ZeroDivisionError. */
  function DiscountFactor(rate: Option<real>, dcf: real): (r: Result<real, ScheduleError>)
    ensures r.Failure? <==> rate.None? || 1.0 + rate.value * dcf == 0.0
    ensures rate.None? ==> r == Failure(RateUnavailable)
    ensures rate.Some? && r.Failure? ==> r.error == ZeroDivision
    ensures r.Success? ==> r.value * (1.0 + rate.value * dcf) == 1.0
    ensures r.Success? && rate.value * dcf >= 0.0 ==> 0.0 < r.value <= 1.0
  {
    match rate
    case None => Failure(RateUnavailable)
    case Some(v) =>
      if 1.0 + v * dcf == 0.0 then Failure(ZeroDivision)
      else Success(1.0 / (1.0 + v * dcf))
  }

  /** A column of discount factors, built element by element: the first
      element that fails decides the error. */
  function DiscountColumn(rates: seq<Option<real>>, dcf: seq<real>): (r: Result<seq<real>, ScheduleError>)
    requires |rates| == |dcf|
    ensures r.Success? <==> forall i :: 0 <= i < |rates| ==> DiscountFactor(rates[i], dcf[i]).Success?
    ensures r.Success? ==>
      |r.value| == |rates| && forall i :: 0 <= i < |rates| ==> r.value[i] == DiscountFactor(rates[i], dcf[i]).value
    ensures r.Failure? ==> exists i :: 0 <= i < |rates| && FirstFailure(rates, dcf, i) && r.error == DiscountFactor(rates[i], dcf[i]).error
  {
    if |rates| == 0 then Success([])
    else
      var head :- DiscountFactor(rates[0], dcf[0]);
      var rest :- DiscountColumn(rates[1..], dcf[1..]);
      assert forall i :: 1 <= i < |rates| ==> rates[i] == rates[1..][i - 1] && dcf[i] == dcf[1..][i - 1];
      Success([head] + rest)
  }

  /** Element `i` is the first whose discount factor fails. */
  ghost predicate FirstFailure(rates: seq<Option<real>>, dcf: seq<real>, i: int)
    requires |rates| == |dcf| && 0 <= i < |rates|
  {
    DiscountFactor(rates[i], dcf[i]).Failure?
    && forall j :: 0 <= j < i ==> DiscountFactor(rates[j], dcf[j]).Success?
  }

  /* ---------------------------------------------------------------------- */
  /* Assembling the schedule                                                */
  /* ---------------------------------------------------------------------- */

  /** One row of the schedule: boundaries and mid-date as day serial numbers,
      the day-count fraction, commitment and repayment, and the reference rate
      and discount factor at both boundaries. */
  datatype Period = Period(
    start: int, end: int, mid: int, dcf: real,
    commitment: real, repayment: real,
    rateStart: real, rateEnd: real,
    discountStart: real, discountEnd: real)

  /** `Schedule.init_with_ql` from the period boundaries on, given the
      commitment column. `dates` are the boundary dates QuantLib generates and
      `dcf` the day-count fraction of each period; `curve` is the reference-rate
      spline, read at each boundary's serial number. Failures come in the
      source's order: the year count read from the tenor, the commitment, its
      length against the number of periods, then the start discount column,
      then the end discount column. */
  function AssembleSchedule(dates: seq<int>, dcf: seq<real>, curve: seq<Segment>, tenor: string,
                            commitment: Result<seq<real>, ScheduleError>)
    : (r: Result<seq<Period>, ScheduleError>)
    requires |dates| >= 1 && |dcf| == |dates| - 1
    ensures r.Success? ==> |r.value| == |dates| - 1 && commitment == Success(Commitments(r.value))
    ensures TenorYears(tenor).Failure? ==> r == Failure(NotAnInteger)
    ensures TenorYears(tenor).Success? && commitment.Failure? ==> r == Failure(commitment.error)
    ensures TenorYears(tenor).Success? && commitment.Success? ==>
      (r == Failure(LengthMismatch) <==> |commitment.value| != |dates| - 1)
  {
    var years :- TenorYears(tenor);
    var commitment :- commitment;
    if |commitment| != |dates| - 1 then Failure(LengthMismatch)
    else ScheduleRows(dates, dcf, curve, commitment)
  }

  /** The rows of a schedule once the commitment column fits the periods: the
      repayment column, the curve's rate at both boundaries and the discount
      factors, the start column before the end column. */
  function ScheduleRows(dates: seq<int>, dcf: seq<real>, curve: seq<Segment>, commitment: seq<real>)
    : (r: Result<seq<Period>, ScheduleError>)
    requires |dates| >= 1 && |dcf| == |dates| - 1 && |commitment| == |dates| - 1
    ensures r.Success? ==> |r.value| == |commitment| && Commitments(r.value) == commitment
    ensures r.Success? ==> forall i {:trigger r.value[i]} :: 0 <= i < |r.value| ==>
      && r.value[i].start == dates[i] && r.value[i].end == dates[i + 1]
      && r.value[i].mid == MidDate(dates[i], dates[i + 1]) && r.value[i].dcf == dcf[i]
    ensures r.Failure? ==> r.error == RateUnavailable || r.error == ZeroDivision
  {
    var n := |commitment|;
    var repayment := GetRepayment(commitment);
    var startRates := seq(n, i requires 0 <= i < n => Evaluate(curve, dates[i] as real));
    var endRates := seq(n, i requires 0 <= i < n => Evaluate(curve, dates[i + 1] as real));
    var startDiscount :- DiscountColumn(startRates, dcf);
    var endDiscount :- DiscountColumn(endRates, dcf);
    var rows := seq(n, i requires 0 <= i < n =>
      Period(dates[i], dates[i + 1], MidDate(dates[i], dates[i + 1]), dcf[i],
             commitment[i], repayment[i], startRates[i].value, endRates[i].value,
             startDiscount[i], endDiscount[i]));
    assert Commitments(rows) == commitment;
    Success(rows)
  }

  /** `Schedule.init_with_ql` with the corrected commitment list. Terms that
      `get_commitment` accepts always carry a year count, so its failures are
      the ones that reach the caller then. */
  function InitSchedule(dates: seq<int>, dcf: seq<real>, curve: seq<Segment>,
                        facilityType: int, c0: real, tenor: string, frequency: string)
    : (r: Result<seq<Period>, ScheduleError>)
    requires |dates| >= 1 && |dcf| == |dates| - 1
    ensures r.Success? ==> |r.value| == |dates| - 1 >= 1
    ensures TenorYears(tenor).Failure? ==> r == Failure(NotAnInteger)
    ensures TenorYears(tenor).Success? && CheckedTerms(facilityType, tenor, frequency).Failure? ==>
      r == Failure(CheckedTerms(facilityType, tenor, frequency).error)
    ensures CheckedTerms(facilityType, tenor, frequency).Success? ==>
      (r == Failure(LengthMismatch) <==> |GetCommitment(facilityType, c0, tenor, frequency).value| != |dates| - 1)
  {
    TenorHead(tenor);
    AssembleSchedule(dates, dcf, curve, tenor, GetCommitment(facilityType, c0, tenor, frequency))
  }

  /** `Schedule.init_with_ql` with the commitment list as written. */
  function InitScheduleAsWritten(dates: seq<int>, dcf: seq<real>, curve: seq<Segment>,
                                 facilityType: int, c0: real, tenor: string, frequency: string)
    : (r: Result<seq<Period>, ScheduleError>)
    requires |dates| >= 1 && |dcf| == |dates| - 1
    ensures r.Success? ==> |r.value| == |dates| - 1 >= 1
    ensures CheckedTerms(facilityType, tenor, frequency).Success? ==>
      (r == Failure(LengthMismatch) <==> |GetCommitmentAsWritten(facilityType, c0, tenor, frequency).value| != |dates| - 1)
  {
    TenorHead(tenor);
    AssembleSchedule(dates, dcf, curve, tenor, GetCommitmentAsWritten(facilityType, c0, tenor, frequency))
  }

  /** Five years paid monthly: QuantLib generates 60 periods, the commitment
      list as written has 59 balances and the column assignment fails on the
      length; the corrected list fits. */
  lemma MonthlyScheduleRejected(dates: seq<int>, dcf: seq<real>, curve: seq<Segment>, c0: real)
    requires |dates| == 61 && |dcf| == 60
    ensures InitScheduleAsWritten(dates, dcf, curve, 1, c0, "5Y", "1M") == Failure(LengthMismatch)
    ensures InitSchedule(dates, dcf, curve, 1, c0, "5Y", "1M") != Failure(LengthMismatch)
  {
    assert CheckedTerms(1, "5Y", "1M") == Success(Terms(5, 1));
    CommitmentLengthAsWritten(1, c0, "5Y", "1M");
    CommitmentLength(1, c0, "5Y", "1M");
  }

  /** The commitment column of a schedule. */
  function Commitments(rows: seq<Period>): (r: seq<real>)
    ensures |r| == |rows|
  {
    seq(|rows|, i requires 0 <= i < |rows| => rows[i].commitment)
  }

  /** The repayment column of a schedule. */
  function Repayments(rows: seq<Period>): (r: seq<real>)
    ensures |r| == |rows|
  {
    seq(|rows|, i requires 0 <= i < |rows| => rows[i].repayment)
  }

  /** The periods of a schedule follow the boundary dates without gaps. */
  lemma ScheduleContiguous(dates: seq<int>, dcf: seq<real>, curve: seq<Segment>,
                           facilityType: int, c0: real, tenor: string, frequency: string)
    requires |dates| >= 1 && |dcf| == |dates| - 1
    requires InitSchedule(dates, dcf, curve, facilityType, c0, tenor, frequency).Success?
    ensures var rows := InitSchedule(dates, dcf, curve, facilityType, c0, tenor, frequency).value;
      && rows[0].start == dates[0] && rows[|rows| - 1].end == dates[|dates| - 1]
      && (forall i :: 0 <= i < |rows| - 1 ==> rows[i].end == rows[i + 1].start)
      && (forall i :: 0 <= i < |rows| ==> rows[i].dcf == dcf[i])
  {
  }

  /** Amortisation conservation for the schedule: the repayments add up to the
      opening commitment, and each period's commitment less its repayment is the
      next period's commitment. */
  lemma ScheduleConservesCommitment(dates: seq<int>, dcf: seq<real>, curve: seq<Segment>,
                                    facilityType: int, c0: real, tenor: string, frequency: string)
    requires |dates| >= 1 && |dcf| == |dates| - 1
    requires InitSchedule(dates, dcf, curve, facilityType, c0, tenor, frequency).Success?
    ensures var rows := InitSchedule(dates, dcf, curve, facilityType, c0, tenor, frequency).value;
      && rows[0].commitment == c0
      && Sum(Repayments(rows)) == c0
      && (forall i :: 0 <= i < |rows| - 1 ==> rows[i].commitment - rows[i].repayment == rows[i + 1].commitment)
      && rows[|rows| - 1].repayment == rows[|rows| - 1].commitment
  {
    var rows := InitSchedule(dates, dcf, curve, facilityType, c0, tenor, frequency).value;
    var commitment := GetCommitment(facilityType, c0, tenor, frequency).value;
    assert Repayments(rows) == GetRepayment(commitment);
    RepaymentsTelescope(commitment);
  }

  /** Each discount factor of a schedule is `DiscountFactor` of the curve's
      rate at that boundary and the period's day-count fraction: the reciprocal
      of one plus their product, in `(0, 1]` when the product is non-negative. */
  lemma ScheduleDiscounts(dates: seq<int>, dcf: seq<real>, curve: seq<Segment>,
                          facilityType: int, c0: real, tenor: string, frequency: string, i: int)
    requires |dates| >= 1 && |dcf| == |dates| - 1
    requires InitSchedule(dates, dcf, curve, facilityType, c0, tenor, frequency).Success?
    requires 0 <= i < |dates| - 1
    ensures var p := InitSchedule(dates, dcf, curve, facilityType, c0, tenor, frequency).value[i];
      && p.dcf == dcf[i]
      && Evaluate(curve, dates[i] as real) == Some(p.rateStart)
      && Evaluate(curve, dates[i + 1] as real) == Some(p.rateEnd)
      && DiscountFactor(Some(p.rateStart), p.dcf) == Success(p.discountStart)
      && DiscountFactor(Some(p.rateEnd), p.dcf) == Success(p.discountEnd)
  {
    var n := |dates| - 1;
    var startRates := seq(n, i requires 0 <= i < n => Evaluate(curve, dates[i] as real));
    var endRates := seq(n, i requires 0 <= i < n => Evaluate(curve, dates[i + 1] as real));
    var startDiscount := DiscountColumn(startRates, dcf);
    var endDiscount := DiscountColumn(endRates, dcf);
    assert startDiscount.Success? && endDiscount.Success?;
    var p := InitSchedule(dates, dcf, curve, facilityType, c0, tenor, frequency).value[i];
    assert p.rateStart == startRates[i].value && p.discountStart == startDiscount.value[i] && p.dcf == dcf[i];
    assert p.rateEnd == endRates[i].value && p.discountEnd == endDiscount.value[i];
    var ds, de := DiscountFactor(startRates[i], dcf[i]), DiscountFactor(endRates[i], dcf[i]);
    assert ds.Success? && ds.value == p.discountStart;
    assert de.Success? && de.value == p.discountEnd;
  }

  /** A schedule fails with a type error when the curve cannot price a
      boundary date, whatever the other columns hold. */
  lemma ScheduleNeedsCurveCoverage(dates: seq<int>, dcf: seq<real>, curve: seq<Segment>,
                                   facilityType: int, c0: real, tenor: string, frequency: string, i: int)
    requires |dates| >= 1 && |dcf| == |dates| - 1
    requires 0 <= i < |dates| && Evaluate(curve, dates[i] as real).None?
    ensures InitSchedule(dates, dcf, curve, facilityType, c0, tenor, frequency).Failure?
  {
    var n := |dates| - 1;
    var r := InitSchedule(dates, dcf, curve, facilityType, c0, tenor, frequency);
    if r.Success? {
      if i < n {
        ScheduleDiscounts(dates, dcf, curve, facilityType, c0, tenor, frequency, i);
      } else {
        ScheduleDiscounts(dates, dcf, curve, facilityType, c0, tenor, frequency, i - 1);
      }
    }
  }

  /** Every mid-date lies within its period when the boundaries increase. */
  lemma ScheduleMidDates(dates: seq<int>, dcf: seq<real>, curve: seq<Segment>,
                         facilityType: int, c0: real, tenor: string, frequency: string)
    requires |dates| >= 1 && |dcf| == |dates| - 1
    requires forall i :: 0 <= i < |dates| - 1 ==> dates[i] < dates[i + 1]
    requires InitSchedule(dates, dcf, curve, facilityType, c0, tenor, frequency).Success?
    ensures var rows := InitSchedule(dates, dcf, curve, facilityType, c0, tenor, frequency).value;
      forall i :: 0 <= i < |rows| ==> rows[i].start <= rows[i].mid < rows[i].end
  {
  }
}

=== FILE: spline.dfy ===
/** The natural cubic spline of backend/interp3.py: a reduced tridiagonal system
    built from the knots, the second-derivative proxies `b` padded with zeros at
    both ends, the recovered `a` and `c` coefficients, and evaluation by a scan
    over closed intervals. The linear solve (`np.linalg.solve`) is not modelled:
    its solution `m` is a parameter, and only the C1 property assumes it solves
    the system. */
module Spline {
  import opened Wrappers
  import opened Sums

  /** One cubic piece `a*t^3 + b*t^2 + c*t + d`, `t = q - left`, owned by the
      knot interval `[left, right]`. */
  datatype Segment = Segment(left: real, right: real, a: real, b: real, c: real, d: real)

  /** Construction errors: numpy rejects a negative matrix dimension (fewer than
      two knots), and ordinates that do not match the knots are rejected with an
      IndexError or a ValueError while the system is built or solved. */
  datatype SplineError = TooFewKnots | ShapeMismatch

  /** The value of a segment at `q`. */
  function Eval(s: Segment, q: real): (v: real)
    ensures q == s.left ==> v == s.d
  {
    var t := q - s.left;
    s.a * t * t * t + s.b * t * t + s.c * t + s.d
  }

  /** The first derivative of a segment at `q`. */
  function Slope(s: Segment, q: real): real
  {
    var t := q - s.left;
    3.0 * s.a * t * t + 2.0 * s.b * t + s.c
  }

  /** The second derivative of a segment at `q`. */
  function Curvature(s: Segment, q: real): real
  {
    6.0 * s.a * (q - s.left) + 2.0 * s.b
  }

  /** `Spline.check_interval`: closed on both ends, so each end of a
      non-empty interval belongs to it, and an empty interval holds nothing. */
  function CheckInterval(s: Segment, q: real): (inside: bool)
    ensures inside ==> s.left <= s.right
    ensures q == s.left || q == s.right ==> (inside <==> s.left <= s.right)
  {
    s.left <= q && s.right >= q
  }

  /** Knot abscissas in strictly increasing order. */
  ghost predicate StrictlyIncreasing(x: seq<real>)
  {
    forall i, j :: 0 <= i < j < |x| ==> x[i] < x[j]
  }

  /** Row `i` of the `(n-2) x n` matrix before its first and last columns are
      dropped: interior knot `i+1` couples the unknowns at knots `i`, `i+1`, `i+2`. */
  function FullRow(x: seq<real>, i: int): seq<real>
    requires 0 <= i < |x| - 2
  {
    seq(|x|, j =>
      if j == i then x[i + 1] - x[i]
      else if j == i + 1 then 2.0 * (x[i + 2] - x[i])
      else if j == i + 2 then x[i + 2] - x[i + 1]
      else 0.0)
  }

  /** `CubicSpline.__create_matrix_X`: the full rows with their first and last
      columns dropped, leaving the square system for the interior unknowns. */
  function CreateMatrixX(x: seq<real>): (X: seq<seq<real>>)
    requires |x| >= 2
    ensures |X| == |x| - 2
    ensures forall i :: 0 <= i < |X| ==> |X[i]| == |x| - 2
  {
    seq(|x| - 2, i requires 0 <= i < |x| - 2 => FullRow(x, i)[1..|x| - 1])
  }

  /** Right-hand side of the row equation at the interior knot `x1`: three
      times the change of secant slope from `[x0, x1]` to `[x1, x2]`. */
  function RowRhs(x0: real, x1: real, x2: real, y0: real, y1: real, y2: real): real
    requires x0 < x1 < x2
  {
    3.0 * ((y2 - y1) / (x2 - x1) - (y1 - y0) / (x1 - x0))
  }

  /** Left-hand side of the row equation at the interior knot `x1`: the three
      nonzero entries of its full row times the padded unknowns. */
  function RowLhs(x0: real, x1: real, x2: real, b0: real, b1: real, b2: real): real
  {
    (x1 - x0) * b0 + 2.0 * (x2 - x0) * b1 + (x2 - x1) * b2
  }

  /** `CubicSpline.__create_matrix_Y`: one right-hand side per interior knot. */
  function CreateMatrixY(x: seq<real>, y: seq<real>): (Y: seq<real>)
    requires |x| == |y| >= 2
    requires StrictlyIncreasing(x)
    ensures |Y| == |y| - 2
  {
    seq(|y| - 2, i requires 0 <= i < |y| - 2 => RowRhs(x[i], x[i + 1], x[i + 2], y[i], y[i + 1], y[i + 2]))
  }

  /** `m` solves the reduced system `X m = Y`: the contract of `np.linalg.solve`. */
  ghost predicate Solves(x: seq<real>, y: seq<real>, m: seq<real>)
    requires |x| == |y| >= 2
    requires StrictlyIncreasing(x)
  {
    var X := CreateMatrixX(x);
    var Y := CreateMatrixY(x, y);
    |m| == |x| - 2 && forall i :: 0 <= i < |X| ==> Dot(X[i], m) == Y[i]
  }

  /** Sum of the absolute off-diagonal entries of row `i`. */
  function OffDiagonalSum(row: seq<real>, i: int): real
  {
    Sum(OffDiagonal(row, i))
  }

  /** The absolute entries of a row with its diagonal entry `i` zeroed. */
  function OffDiagonal(row: seq<real>, i: int): (r: seq<real>)
    ensures |r| == |row|
  {
    seq(|row|, j requires 0 <= j < |row| => if j == i then 0.0 else Abs(row[j]))
  }

  function Abs(r: real): real
  {
    if r < 0.0 then -r else r
  }

  /** The natural boundary: the interior unknowns padded with a zero at each end. */
  function Padded(m: seq<real>): (b: seq<real>)
    ensures |b| == |m| + 2 && b[0] == 0.0 && b[|b| - 1] == 0.0
    ensures forall k :: 0 <= k < |m| ==> b[k + 1] == m[k]
  {
    [0.0] + m + [0.0]
  }

  /** `CubicSpline.__compute_a`; the trailing entry stays 0. */
  function ComputeA(b: seq<real>, x: seq<real>): (a: seq<real>)
    requires |b| == |x| && StrictlyIncreasing(x)
    ensures |a| == |b|
    ensures |a| > 0 ==> a[|a| - 1] == 0.0
  {
    seq(|b|, i requires 0 <= i < |b| =>
      if i < |b| - 1 then CubicCoefficient(b[i], b[i + 1], x[i + 1] - x[i]) else 0.0)
  }

  /** Entry of `__compute_a` for one interval of width `h`. */
  function CubicCoefficient(b0: real, b1: real, h: real): real
    requires h != 0.0
  {
    (b1 - b0) / (3.0 * h)
  }

  /** Entry of `__compute_c` for one interval of width `h`. */
  function LinearCoefficient(b0: real, b1: real, y0: real, y1: real, h: real): real
    requires h != 0.0
  {
    (y1 - y0) / h - (b1 - b0) * h / 3.0 - b0 * h
  }

  /** `CubicSpline.__compute_c`; the trailing entry stays 0. */
  function ComputeC(b: seq<real>, d: seq<real>, x: seq<real>): (c: seq<real>)
    requires |b| == |d| == |x| && StrictlyIncreasing(x)
    ensures |c| == |b|
    ensures |c| > 0 ==> c[|c| - 1] == 0.0
  {
    seq(|b|, i requires 0 <= i < |b| =>
      if i < |b| - 1 then LinearCoefficient(b[i], b[i + 1], d[i], d[i + 1], x[i + 1] - x[i]) else 0.0)
  }

  /** `CubicSpline.__compute_coefficients` followed by the segment list of
      `CubicSpline.__init__`: every coefficient array loses its trailing entry and
      segment `i` spans `(x[i], x[i+1])`. `m` is the solver's result for the
      interior knots. */
  function NewCubicSpline(x: seq<real>, y: seq<real>, m: seq<real>): (r: Result<seq<Segment>, SplineError>)
    requires StrictlyIncreasing(x)
    requires |x| >= 2 ==> |m| == |x| - 2
    ensures r.Failure? <==> |x| < 2 || |y| != |x|
    ensures |x| < 2 ==> r == Failure(TooFewKnots)
    ensures r.Success? ==>
      var segs := r.value;
      && |segs| == |x| - 1
      && (forall i :: 0 <= i < |segs| ==>
            segs[i].left == x[i] && segs[i].right == x[i + 1]
            && segs[i].d == y[i] && segs[i].b == Padded(m)[i])
  {
    if |x| < 2 then Failure(TooFewKnots)
    else if |y| != |x| then Failure(ShapeMismatch)
    else
      var b := Padded(m);
      var a := ComputeA(b, x);
      var c := ComputeC(b, y, x);
      Success(Segments(x, a, b, c, y))
  }

  /** The segment list of `CubicSpline.__init__`, one segment per knot
      interval. Only the first `n - 1` entries of `a`, `b`, `c` and `d` are
      used: the source drops the trailing entry of each array. */
  function Segments(x: seq<real>, a: seq<real>, b: seq<real>, c: seq<real>, d: seq<real>): (segs: seq<Segment>)
    requires |x| >= 1 && |a| == |b| == |c| == |d| == |x|
    ensures |segs| == |x| - 1
    ensures forall i :: 0 <= i < |segs| ==>
      segs[i].left == x[i] && segs[i].right == x[i + 1] && segs[i].b == b[i] && segs[i].d == d[i]
    decreases |x|
  {
    if |x| == 1 then []
    else [Segment(x[0], x[1], a[0], b[0], c[0], d[0])] + Segments(x[1..], a[1..], b[1..], c[1..], d[1..])
  }

  /** Segment `i` carries the `i`-th entry of every coefficient array. */
  lemma {:induction false} SegmentsEntry(x: seq<real>, a: seq<real>, b: seq<real>, c: seq<real>, d: seq<real>, i: int)
    requires |x| >= 1 && |a| == |b| == |c| == |d| == |x|
    requires 0 <= i < |x| - 1
    ensures Segments(x, a, b, c, d)[i] == Segment(x[i], x[i + 1], a[i], b[i], c[i], d[i])
    decreases |x|
  {
    if i > 0 {
      SegmentsEntry(x[1..], a[1..], b[1..], c[1..], d[1..], i - 1);
    }
  }

  /** `CubicSpline.evaluate`: the first segment whose closed interval holds `q`,
      or no value (the source's `"x_i out of range!"` string). */
  function Evaluate(segs: seq<Segment>, q: real): (r: Option<real>)
    ensures r.None? <==> forall j :: 0 <= j < |segs| ==> !CheckInterval(segs[j], q)
  {
    if |segs| == 0 then None
    else if CheckInterval(segs[0], q) then Some(Eval(segs[0], q))
    else Evaluate(segs[1..], q)
  }

  /** The first segment holding `q` is the one `Evaluate` uses. */
  lemma {:induction false} EvaluateFirstMatch(segs: seq<Segment>, q: real, j: int)
    requires 0 <= j < |segs| && CheckInterval(segs[j], q)
    requires forall i :: 0 <= i < j ==> !CheckInterval(segs[i], q)
    ensures Evaluate(segs, q) == Some(Eval(segs[j], q))
  {
    if j > 0 {
      EvaluateFirstMatch(segs[1..], q, j - 1);
    }
  }

  /** The segment on `[x0, x1]` recovered from the padded unknowns `b0`, `b1`
      and the ordinates `y0`, `y1` by `__compute_a` and `__compute_c`. */
  function SegmentOf(x0: real, x1: real, b0: real, b1: real, y0: real, y1: real): Segment
    requires x0 < x1
  {
    Segment(x0, x1, CubicCoefficient(b0, b1, x1 - x0), b0, LinearCoefficient(b0, b1, y0, y1, x1 - x0), y0)
  }

  /** The slope a segment built from `b0`, `b1`, `y0`, `y1` reaches at the right
      end of an interval of width `h`. */
  function RightSlope(b0: real, b1: real, y0: real, y1: real, h: real): real
    requires h != 0.0
  {
    (y1 - y0) / h + h * (b0 + 2.0 * b1) / 3.0
  }

  /** Segment `i` of the spline is the one recovered from knots `i` and `i+1`. */
  lemma SegmentIs(x: seq<real>, y: seq<real>, m: seq<real>, i: int)
    requires StrictlyIncreasing(x) && |x| >= 2 && |m| == |x| - 2 && |y| == |x|
    requires 0 <= i < |x| - 1
    ensures NewCubicSpline(x, y, m).value[i]
      == SegmentOf(x[i], x[i + 1], Padded(m)[i], Padded(m)[i + 1], y[i], y[i + 1])
  {
    var b := Padded(m);
    SegmentsEntry(x, ComputeA(b, x), b, ComputeC(b, y, x), y, i);
    CoefficientEntries(b, x, y, i);
  }

  /** Entry `i` of `__compute_a` and `__compute_c` below the last knot. */
  lemma CoefficientEntries(b: seq<real>, x: seq<real>, y: seq<real>, i: int)
    requires |b| == |x| == |y| && StrictlyIncreasing(x)
    requires 0 <= i < |x| - 1
    ensures x[i] < x[i + 1]
    ensures ComputeA(b, x)[i] == CubicCoefficient(b[i], b[i + 1], x[i + 1] - x[i])
    ensures ComputeC(b, y, x)[i] == LinearCoefficient(b[i], b[i + 1], y[i], y[i + 1], x[i + 1] - x[i])
  {
  }

  /** Values and derivatives of a recovered segment at both ends: it meets `y0`
      and `y1`, its second derivative is `2*b0` and `2*b1`, and its slope is its
      linear coefficient on the left and `RightSlope` on the right. */
  lemma SegmentOfEnds(x0: real, x1: real, b0: real, b1: real, y0: real, y1: real)
    requires x0 < x1
    ensures Eval(SegmentOf(x0, x1, b0, b1, y0, y1), x0) == y0
    ensures Eval(SegmentOf(x0, x1, b0, b1, y0, y1), x1) == y1
    ensures Curvature(SegmentOf(x0, x1, b0, b1, y0, y1), x0) == 2.0 * b0
    ensures Curvature(SegmentOf(x0, x1, b0, b1, y0, y1), x1) == 2.0 * b1
    ensures Slope(SegmentOf(x0, x1, b0, b1, y0, y1), x0) == LinearCoefficient(b0, b1, y0, y1, x1 - x0)
    ensures Slope(SegmentOf(x0, x1, b0, b1, y0, y1), x1) == RightSlope(b0, b1, y0, y1, x1 - x0)
  {
    var h := x1 - x0;
    var a := CubicCoefficient(b0, b1, h);
    var c := LinearCoefficient(b0, b1, y0, y1, h);
    var sec := (y1 - y0) / h;
    assert sec * h == y1 - y0;
    assert c == sec - (b1 - b0) * h / 3.0 - b0 * h;
    assert c * h == sec * h - (b1 - b0) * h * h / 3.0 - b0 * h * h;
    assert a * (3.0 * h) == b1 - b0;
    assert a * h * h * h == (b1 - b0) * h * h / 3.0 by {
      assert a * h * h * h == (a * (3.0 * h)) * h * h / 3.0;
    }
    assert 3.0 * a * h * h == (b1 - b0) * h by {
      assert 3.0 * a * h * h == (a * (3.0 * h)) * h;
    }
    assert 6.0 * a * h == 2.0 * (b1 - b0) by {
      assert 6.0 * a * h == 2.0 * (a * (3.0 * h));
    }
    var s := SegmentOf(x0, x1, b0, b1, y0, y1);
    assert Eval(s, x1) == a * h * h * h + b0 * h * h + c * h + y0;
    assert a * h * h * h + b0 * h * h + c * h + y0 == y1;
  }

  /** Segment `i` in terms of knots `i` and `i+1`: its values, second
      derivatives and slopes at both ends. */
  lemma SegmentEnds(x: seq<real>, y: seq<real>, m: seq<real>, i: int)
    requires StrictlyIncreasing(x) && |x| >= 2 && |m| == |x| - 2 && |y| == |x|
    requires 0 <= i < |x| - 1
    ensures var s := NewCubicSpline(x, y, m).value[i];
      var b := Padded(m);
      && Eval(s, x[i]) == y[i]
      && Eval(s, x[i + 1]) == y[i + 1]
      && Curvature(s, x[i]) == 2.0 * b[i]
      && Curvature(s, x[i + 1]) == 2.0 * b[i + 1]
      && Slope(s, x[i]) == LinearCoefficient(b[i], b[i + 1], y[i], y[i + 1], x[i + 1] - x[i])
      && Slope(s, x[i + 1]) == RightSlope(b[i], b[i + 1], y[i], y[i + 1], x[i + 1] - x[i])
  {
    SegmentIs(x, y, m, i);
    SegmentOfEnds(x[i], x[i + 1], Padded(m)[i], Padded(m)[i + 1], y[i], y[i + 1]);
  }

  /** The second derivative of segment `i` at both ends of its interval. */
  lemma SegmentCurvatures(x: seq<real>, y: seq<real>, m: seq<real>, i: int)
    requires StrictlyIncreasing(x) && |x| >= 2 && |m| == |x| - 2 && |y| == |x|
    requires 0 <= i < |x| - 1
    ensures Curvature(NewCubicSpline(x, y, m).value[i], x[i]) == 2.0 * Padded(m)[i]
    ensures Curvature(NewCubicSpline(x, y, m).value[i], x[i + 1]) == 2.0 * Padded(m)[i + 1]
  {
    SegmentEnds(x, y, m, i);
  }

  /** Segment `i` takes the value `y[i]` at its left knot. */
  lemma SegmentHitsLeftKnot(x: seq<real>, y: seq<real>, m: seq<real>, i: int)
    requires StrictlyIncreasing(x) && |x| >= 2 && |m| == |x| - 2 && |y| == |x|
    requires 0 <= i < |x| - 1
    ensures Eval(NewCubicSpline(x, y, m).value[i], x[i]) == y[i]
  {
    SegmentEnds(x, y, m, i);
  }

  /** Segment `i` takes the value `y[i+1]` at its right knot, whatever the
      unknowns `m` are. */
  lemma SegmentHitsRightKnot(x: seq<real>, y: seq<real>, m: seq<real>, i: int)
    requires StrictlyIncreasing(x) && |x| >= 2 && |m| == |x| - 2 && |y| == |x|
    requires 0 <= i < |x| - 1
    ensures Eval(NewCubicSpline(x, y, m).value[i], x[i + 1]) == y[i + 1]
  {
    SegmentEnds(x, y, m, i);
  }

  /** Natural boundary: the second derivative vanishes at the first and the
      last knot. */
  lemma NaturalBoundary(x: seq<real>, y: seq<real>, m: seq<real>)
    requires StrictlyIncreasing(x) && |x| >= 2 && |m| == |x| - 2 && |y| == |x|
    ensures var segs := NewCubicSpline(x, y, m).value;
      Curvature(segs[0], x[0]) == 0.0 && Curvature(segs[|segs| - 1], x[|x| - 1]) == 0.0
  {
    var segs := NewCubicSpline(x, y, m).value;
    var n := |x|;
    assert Curvature(segs[0], x[0]) == 0.0 by {
      SegmentEnds(x, y, m, 0);
    }
    assert Curvature(segs[n - 2], x[n - 1]) == 0.0 by {
      SegmentEnds(x, y, m, n - 2);
    }
  }

  /** The second derivative is continuous at every interior knot, whatever `m` is. */
  lemma CurvatureContinuous(x: seq<real>, y: seq<real>, m: seq<real>, i: int)
    requires StrictlyIncreasing(x) && |x| >= 2 && |m| == |x| - 2 && |y| == |x|
    requires 0 <= i < |x| - 2
    ensures var segs := NewCubicSpline(x, y, m).value;
      Curvature(segs[i], x[i + 1]) == Curvature(segs[i + 1], x[i + 1])
  {
    SegmentCurvatures(x, y, m, i);
    SegmentCurvatures(x, y, m, i + 1);
  }

  /** Row equation `i` of the reduced system, written over the padded unknowns:
      the dropped first and last columns multiply the zero boundary entries. */
  lemma DotPadded(x: seq<real>, m: seq<real>, i: int)
    requires |x| >= 3 && |m| == |x| - 2
    requires 0 <= i < |x| - 2
    ensures Dot(CreateMatrixX(x)[i], m) == Dot(FullRow(x, i), Padded(m))
  {
    var n := |x|;
    var row := CreateMatrixX(x)[i];
    var full := FullRow(x, i);
    var b := Padded(m);
    var inner := Times(row, m);
    var whole := Times(full, b);
    assert whole[0] == 0.0 && whole[n - 1] == 0.0;
    forall k | 1 <= k < n - 1
      ensures whole[k] == inner[k - 1]
    {
      assert row[k - 1] == full[k] && b[k] == m[k - 1];
    }
    assert whole == [whole[0]] + inner + [whole[n - 1]];
    SumAppend([whole[0]] + inner, [whole[n - 1]]);
    SumAppend([whole[0]], inner);
    SumOfThree([0.0, 0.0, 0.0]);
  }

  /** A full row touches only the three unknowns around interior knot `i+1`. */
  lemma DotFullRow(x: seq<real>, v: seq<real>, i: int)
    requires |v| == |x|
    requires 0 <= i < |x| - 2
    ensures Dot(FullRow(x, i), v) == RowLhs(x[i], x[i + 1], x[i + 2], v[i], v[i + 1], v[i + 2])
  {
    var t := Times(FullRow(x, i), v);
    SumOfWindow(t, i, i + 3);
    SumOfThree(t[i..i + 3]);
  }

  /** Row equation of the system at the interior knot `x1`. */
  predicate RowHolds(x0: real, x1: real, x2: real, b0: real, b1: real, b2: real, y0: real, y1: real, y2: real)
    requires x0 < x1 < x2
  {
    RowLhs(x0, x1, x2, b0, b1, b2) == RowRhs(x0, x1, x2, y0, y1, y2)
  }

  /** Scalar form of C1 continuity at one interior knot: if the unknowns satisfy
      the row equation there, the left segment's slope at the knot equals the
      right segment's linear coefficient. */
  lemma SlopeMatch(x0: real, x1: real, x2: real, b0: real, b1: real, b2: real, y0: real, y1: real, y2: real)
    requires x0 < x1 < x2
    requires RowHolds(x0, x1, x2, b0, b1, b2, y0, y1, y2)
    ensures RightSlope(b0, b1, y0, y1, x1 - x0) == LinearCoefficient(b1, b2, y1, y2, x2 - x1)
  {
    var h0, h1 := x1 - x0, x2 - x1;
    assert 2.0 * (x2 - x0) * b1 == 2.0 * (h0 + h1) * b1;
    assert h0 * b0 + 2.0 * (h0 + h1) * b1 + h1 * b2 == 3.0 * ((y2 - y1) / h1 - (y1 - y0) / h0);
  }

  /** C1 continuity: when `m` solves the system `X m = Y`, the first derivative
      of segment `i` at knot `x[i+1]` equals that of segment `i+1` there. */
  lemma SlopeContinuous(x: seq<real>, y: seq<real>, m: seq<real>, i: int)
    requires StrictlyIncreasing(x) && |x| >= 3 && |y| == |x|
    requires Solves(x, y, m)
    requires 0 <= i < |x| - 2
    ensures var segs := NewCubicSpline(x, y, m).value;
      Slope(segs[i], x[i + 1]) == Slope(segs[i + 1], x[i + 1])
  {
    RowEquation(x, y, m, i);
    SlopesMeetWhereRowHolds(x, y, m, i);
  }

  /** The two segments around interior knot `i+1` have the same slope there
      whenever row `i` of the system holds. */
  lemma SlopesMeetWhereRowHolds(x: seq<real>, y: seq<real>, m: seq<real>, i: int)
    requires StrictlyIncreasing(x) && |x| >= 3 && |y| == |x| && |m| == |x| - 2
    requires 0 <= i < |x| - 2
    requires x[i] < x[i + 1] < x[i + 2]
    requires RowHolds(x[i], x[i + 1], x[i + 2], Padded(m)[i], Padded(m)[i + 1], Padded(m)[i + 2],
                      y[i], y[i + 1], y[i + 2])
    ensures var segs := NewCubicSpline(x, y, m).value;
      Slope(segs[i], x[i + 1]) == Slope(segs[i + 1], x[i + 1])
  {
    var b := Padded(m);
    SlopeMatch(x[i], x[i + 1], x[i + 2], b[i], b[i + 1], b[i + 2], y[i], y[i + 1], y[i + 2]);
    var j := i + 1;
    assert b[j + 1] == b[i + 2] && x[j + 1] == x[i + 2] && y[j + 1] == y[i + 2];
    SegmentSlopeRight(x, y, m, i);
    SegmentSlopeLeft(x, y, m, j);
  }

  /** The slope of segment `i` at its left knot is its coefficient `c[i]`. */
  lemma SlopeAtLeftKnot(x: seq<real>, y: seq<real>, m: seq<real>, i: int)
    requires StrictlyIncreasing(x) && |x| >= 2 && |m| == |x| - 2 && |y| == |x|
    requires 0 <= i < |x| - 1
    ensures var s := NewCubicSpline(x, y, m).value[i];
      Slope(s, x[i]) == s.c
  {
    SegmentSlopeLeft(x, y, m, i);
    SegmentIs(x, y, m, i);
  }

  /** Row `i` of `X m = Y` over the padded unknowns. */
  lemma RowEquation(x: seq<real>, y: seq<real>, m: seq<real>, i: int)
    requires StrictlyIncreasing(x) && |x| >= 3 && |y| == |x|
    requires Solves(x, y, m)
    requires 0 <= i < |x| - 2
    ensures x[i] < x[i + 1] < x[i + 2]
    ensures RowHolds(x[i], x[i + 1], x[i + 2], Padded(m)[i], Padded(m)[i + 1], Padded(m)[i + 2],
                     y[i], y[i + 1], y[i + 2])
  {
    assert x[i] < x[i + 1] < x[i + 2];
    DotPadded(x, m, i);
    DotFullRow(x, Padded(m), i);
    assert Dot(CreateMatrixX(x)[i], m) == CreateMatrixY(x, y)[i];
  }

  /** The first derivative of segment `i` at its left knot. */
  lemma SegmentSlopeLeft(x: seq<real>, y: seq<real>, m: seq<real>, i: int)
    requires StrictlyIncreasing(x) && |x| >= 2 && |m| == |x| - 2 && |y| == |x|
    requires 0 <= i < |x| - 1
    ensures var b := Padded(m);
      Slope(NewCubicSpline(x, y, m).value[i], x[i]) == LinearCoefficient(b[i], b[i + 1], y[i], y[i + 1], x[i + 1] - x[i])
  {
    SegmentEnds(x, y, m, i);
  }

  /** The first derivative of segment `i` at its right knot. */
  lemma SegmentSlopeRight(x: seq<real>, y: seq<real>, m: seq<real>, i: int)
    requires StrictlyIncreasing(x) && |x| >= 2 && |m| == |x| - 2 && |y| == |x|
    requires 0 <= i < |x| - 1
    ensures var b := Padded(m);
      Slope(NewCubicSpline(x, y, m).value[i], x[i + 1]) == RightSlope(b[i], b[i + 1], y[i], y[i + 1], x[i + 1] - x[i])
  {
    SegmentEnds(x, y, m, i);
  }

  /** The entries of the reduced matrix: row `i` holds the width of the
      interval left of interior knot `i+1` below the diagonal, twice the width of
      both intervals on it, the width of the interval to its right above it, and
      zeros elsewhere, so the matrix is tridiagonal. */
  lemma MatrixEntries(x: seq<real>, i: int, j: int)
    requires |x| >= 2
    requires 0 <= i < |x| - 2 && 0 <= j < |x| - 2
    ensures CreateMatrixX(x)[i][j]
      == if j == i - 1 then x[i + 1] - x[i]
         else if j == i then 2.0 * (x[i + 2] - x[i])
         else if j == i + 1 then x[i + 2] - x[i + 1]
         else 0.0
  {
    assert CreateMatrixX(x)[i][j] == FullRow(x, i)[j + 1];
  }

  /** The reduced matrix is strictly diagonally dominant for strictly increasing
      knots: the absolute off-diagonal entries of row `i` add up to at most the
      width `x[i+2] - x[i]` of the two intervals around interior knot `i+1`,
      half the diagonal entry. */
  lemma MatrixDiagonallyDominant(x: seq<real>, i: int)
    requires StrictlyIncreasing(x) && |x| >= 3
    requires 0 <= i < |x| - 2
    ensures OffDiagonalSum(CreateMatrixX(x)[i], i) <= (x[i + 1] - x[i]) + (x[i + 2] - x[i + 1])
    ensures (x[i + 1] - x[i]) + (x[i + 2] - x[i + 1]) < CreateMatrixX(x)[i][i]
  {
    var full := FullRow(x, i);
    assert CreateMatrixX(x)[i] == full[1..|x| - 1];
    DroppedColumns(full, i);
    FullRowOffDiagonal(x, i);
    assert CreateMatrixX(x)[i][i] == full[i + 1];
  }

  /** Dropping the first and last column of a row can only shrink the sum of
      its absolute off-diagonal entries; the diagonal moves from column `i + 1`
      to column `i`. */
  lemma DroppedColumns(full: seq<real>, i: int)
    requires |full| >= 2
    ensures OffDiagonalSum(full[1..|full| - 1], i) <= OffDiagonalSum(full, i + 1)
  {
    var n := |full|;
    var inner := OffDiagonal(full[1..n - 1], i);
    var outer := OffDiagonal(full, i + 1);
    forall j | 0 <= j < n - 2
      ensures outer[j + 1] == inner[j]
    {
      assert full[1..n - 1][j] == full[j + 1];
    }
    assert outer == [outer[0]] + inner + [outer[n - 1]];
    SumAppend([outer[0]] + inner, [outer[n - 1]]);
    SumAppend([outer[0]], inner);
    assert Sum([outer[0]]) == outer[0];
    assert Sum([outer[n - 1]]) == outer[n - 1];
  }

  /** The full row of interior knot `i + 1` has two off-diagonal entries: the
      widths of the intervals on either side of the knot. */
  lemma FullRowOffDiagonal(x: seq<real>, i: int)
    requires StrictlyIncreasing(x) && |x| >= 3
    requires 0 <= i < |x| - 2
    ensures x[i] < x[i + 1] < x[i + 2]
    ensures OffDiagonalSum(FullRow(x, i), i + 1) == (x[i + 1] - x[i]) + (x[i + 2] - x[i + 1])
  {
    var outer := OffDiagonal(FullRow(x, i), i + 1);
    assert x[i] < x[i + 1] < x[i + 2];
    forall k | 0 <= k < |outer| && (k < i || i + 3 <= k)
      ensures outer[k] == 0.0
    {
    }
    var full := FullRow(x, i);
    assert full[i] == x[i + 1] - x[i] && full[i + 2] == x[i + 2] - x[i + 1];
    assert outer[i] == x[i + 1] - x[i] && outer[i + 1] == 0.0 && outer[i + 2] == x[i + 2] - x[i + 1];
    SumOfWindow(outer, i, i + 3);
    SumOfThree(outer[i..i + 3]);
  }

  /** Segments laid over consecutive knot intervals: segment `j` spans
      `[x[j], x[j+1]]`. */
  ghost predicate SpansKnots(segs: seq<Segment>, x: seq<real>)
  {
    |segs| == |x| - 1 && forall j :: 0 <= j < |segs| ==> segs[j].left == x[j] && segs[j].right == x[j + 1]
  }

  /** The constructed spline spans its knots. */
  lemma SplineSpansKnots(x: seq<real>, y: seq<real>, m: seq<real>)
    requires StrictlyIncreasing(x) && |x| >= 2 && |m| == |x| - 2 && |y| == |x|
    ensures SpansKnots(NewCubicSpline(x, y, m).value, x)
  {
  }

  /** The evaluation scan picks segment `i` for every `q` in `(x[i], x[i+1]]`,
      and segment 0 for `q == x[0]`: at an interior knot the left segment wins. */
  lemma EvaluateSelectsSegment(segs: seq<Segment>, x: seq<real>, q: real, i: int)
    requires StrictlyIncreasing(x) && SpansKnots(segs, x)
    requires 0 <= i < |x| - 1
    requires x[i] < q <= x[i + 1] || (i == 0 && q == x[0])
    ensures Evaluate(segs, q) == Some(Eval(segs[i], q))
  {
    forall k | 0 <= k < i
      ensures !CheckInterval(segs[k], q)
    {
      assert segs[k].right == x[k + 1] && (k + 1 == i || x[k + 1] < x[i]);
    }
    assert x[i] < x[i + 1];
    assert CheckInterval(segs[i], q);
    EvaluateFirstMatch(segs, q, i);
  }

  lemma IntervalExists(x: seq<real>, q: real, k: int)
    requires StrictlyIncreasing(x)
    requires 0 <= k < |x| - 1 && x[k] <= q <= x[|x| - 1]
    ensures exists j :: k <= j < |x| - 1 && x[j] <= q <= x[j + 1]
    decreases |x| - k
  {
    if q > x[k + 1] {
      IntervalExists(x, q, k + 1);
    }
  }

  /** Range rejection: the scan yields no value exactly when `q` lies outside
      `[x[0], x[n-1]]`. */
  lemma EvaluateOutOfRange(segs: seq<Segment>, x: seq<real>, q: real)
    requires StrictlyIncreasing(x) && SpansKnots(segs, x) && |x| >= 2
    ensures Evaluate(segs, q).None? <==> q < x[0] || q > x[|x| - 1]
  {
    if q < x[0] || q > x[|x| - 1] {
      OutsideMatchesNoSegment(segs, x, q);
    } else {
      InsideMatchesSomeSegment(segs, x, q);
    }
  }

  lemma OutsideMatchesNoSegment(segs: seq<Segment>, x: seq<real>, q: real)
    requires StrictlyIncreasing(x) && SpansKnots(segs, x) && |x| >= 2
    requires q < x[0] || q > x[|x| - 1]
    ensures forall j :: 0 <= j < |segs| ==> !CheckInterval(segs[j], q)
  {
    var n := |x|;
    forall j | 0 <= j < |segs|
      ensures !CheckInterval(segs[j], q)
    {
      assert segs[j].left == x[j] && segs[j].right == x[j + 1];
      assert x[0] <= x[j];
      assert x[j + 1] <= x[n - 1];
    }
  }

  lemma InsideMatchesSomeSegment(segs: seq<Segment>, x: seq<real>, q: real)
    requires StrictlyIncreasing(x) && SpansKnots(segs, x) && |x| >= 2
    requires x[0] <= q <= x[|x| - 1]
    ensures exists j :: 0 <= j < |segs| && CheckInterval(segs[j], q)
  {
    IntervalExists(x, q, 0);
    var j :| 0 <= j < |x| - 1 && x[j] <= q <= x[j + 1];
    assert CheckInterval(segs[j], q);
  }

  /** The scan at knot `x[k]` returns the value of the segment that ends (or,
      for `k == 0`, starts) there. */
  lemma ScanAtKnot(segs: seq<Segment>, x: seq<real>, y: seq<real>, k: int)
    requires StrictlyIncreasing(x) && SpansKnots(segs, x) && |y| == |x| && |x| >= 2
    requires 0 <= k < |x|
    requires k == 0 ==> Eval(segs[0], x[0]) == y[0]
    requires k > 0 ==> Eval(segs[k - 1], x[k]) == y[k]
    ensures Evaluate(segs, x[k]) == Some(y[k])
  {
    if k == 0 {
      EvaluateSelectsSegment(segs, x, x[0], 0);
    } else {
      EvaluateSelectsSegment(segs, x, x[k], k - 1);
    }
  }

  /** Interpolation: evaluating the spline at any knot `x[k]` returns `y[k]`. */
  lemma InterpolatesKnots(x: seq<real>, y: seq<real>, m: seq<real>, k: int)
    requires StrictlyIncreasing(x) && |x| >= 2 && |m| == |x| - 2 && |y| == |x|
    requires 0 <= k < |x|
    ensures Evaluate(NewCubicSpline(x, y, m).value, x[k]) == Some(y[k])
  {
    SplineSpansKnots(x, y, m);
    if k == 0 {
      SegmentHitsLeftKnot(x, y, m, 0);
    } else {
      SegmentHitsRightKnot(x, y, m, k - 1);
    }
    ScanAtKnot(NewCubicSpline(x, y, m).value, x, y, k);
  }
}

=== FILE: sums.dfy ===
/** Sums and element-wise arithmetic over sequences of reals: the `np.sum`,
    `a + b` and `a * b` of the numpy arrays the pricer works on. */
module Sums {

  /** Sum of all entries. */
  function Sum(s: seq<real>): real
    decreases |s|
  {
    if |s| == 0 then 0.0 else s[0] + Sum(s[1..])
  }

  /** Element-wise sum of two arrays of equal shape. */
  function Plus(a: seq<real>, b: seq<real>): seq<real>
    requires |a| == |b|
  {
    seq(|a|, i requires 0 <= i < |a| => a[i] + b[i])
  }

  /** Element-wise product of two arrays of equal shape. */
  function Times(a: seq<real>, b: seq<real>): seq<real>
    requires |a| == |b|
  {
    seq(|a|, i requires 0 <= i < |a| => a[i] * b[i])
  }

  /** Every entry multiplied by the scalar `k`. */
  function Scale(k: real, a: seq<real>): seq<real>
  {
    seq(|a|, i requires 0 <= i < |a| => k * a[i])
  }

  /** Dot product of two vectors of equal length. */
  function Dot(u: seq<real>, v: seq<real>): real
    requires |u| == |v|
  {
    Sum(Times(u, v))
  }

  lemma {:induction false} SumAppend(a: seq<real>, b: seq<real>)
    ensures Sum(a + b) == Sum(a) + Sum(b)
  {
    if |a| == 0 {
      assert a + b == b;
    } else {
      assert (a + b)[1..] == a[1..] + b;
      SumAppend(a[1..], b);
    }
  }

  /** Sum of a sequence whose entries are all zero. */
  lemma {:induction false} SumOfZeros(s: seq<real>)
    requires forall k :: 0 <= k < |s| ==> s[k] == 0.0
    ensures Sum(s) == 0.0
  {
    if |s| > 0 {
      SumOfZeros(s[1..]);
    }
  }

  /** A sum of non-negative entries is non-negative. */
  lemma {:induction false} SumNonNegative(s: seq<real>)
    requires forall k :: 0 <= k < |s| ==> s[k] >= 0.0
    ensures Sum(s) >= 0.0
  {
    if |s| > 0 {
      SumNonNegative(s[1..]);
    }
  }

  /** Only the window `[lo, hi)` contributes when every entry outside it is zero. */
  lemma SumOfWindow(s: seq<real>, lo: int, hi: int)
    requires 0 <= lo <= hi <= |s|
    requires forall k :: 0 <= k < lo ==> s[k] == 0.0
    requires forall k :: hi <= k < |s| ==> s[k] == 0.0
    ensures Sum(s) == Sum(s[lo..hi])
  {
    assert s == s[..lo] + s[lo..hi] + s[hi..];
    SumAppend(s[..lo] + s[lo..hi], s[hi..]);
    SumAppend(s[..lo], s[lo..hi]);
    SumOfZeros(s[..lo]);
    SumOfZeros(s[hi..]);
  }

  /** Sum of a three-entry window. */
  lemma SumOfThree(s: seq<real>)
    requires |s| == 3
    ensures Sum(s) == s[0] + s[1] + s[2]
  {
    assert Sum(s[2..]) == s[2] + Sum(s[3..]);
    assert Sum(s[1..]) == s[1] + Sum(s[2..]);
  }

  /** `np.sum(a + b) == np.sum(a) + np.sum(b)`. */
  lemma {:induction false} SumPlus(a: seq<real>, b: seq<real>)
    requires |a| == |b|
    ensures Sum(Plus(a, b)) == Sum(a) + Sum(b)
  {
    if |a| > 0 {
      assert Plus(a, b)[1..] == Plus(a[1..], b[1..]);
      SumPlus(a[1..], b[1..]);
    }
  }

  /** `np.sum(k * a) == k * np.sum(a)`. */
  lemma {:induction false} SumScale(k: real, a: seq<real>)
    ensures Sum(Scale(k, a)) == k * Sum(a)
  {
    if |a| > 0 {
      assert forall i :: 0 <= i < |a| - 1 ==> Scale(k, a)[1..][i] == Scale(k, a[1..])[i];
      assert Scale(k, a)[1..] == Scale(k, a[1..]);
      SumScale(k, a[1..]);
    }
  }

  /** `n` copies of `k`: a scalar broadcast over `n` entries. */
  function Constant(k: real, n: nat): (s: seq<real>)
    ensures |s| == n
  {
    seq(n, _ => k)
  }
}

=== FILE: wrappers.dfy ===
/** Failure-compatible result types used for the error paths of the pricer. */
module Wrappers {

  /** A value that may be absent, e.g. a curve queried outside its knots. */
  datatype Option<+T> = None | Some(value: T)

  /** Either a computed value or the error the computation raised. */
  datatype Result<+R, +E> = Success(value: R) | Failure(error: E) {

    predicate IsFailure() {
      Failure?
    }

    function PropagateFailure<U>(): Result<U, E>
      requires Failure?
    {
      Failure(error)
    }

    function Extract(): R
      requires Success?
    {
      value
    }
  }
}
